=== FILE: README.md ===
# starrock physics core in Dafny

This project models the simulation core of *starrock*, a browser asteroids game. Ships, rocks
and bullets drift over a 4 × 3 toroidal playfield. Each frame, the game loop:

1. applies keyboard input to the ship;
2. finds every rock-rock and ship-rock contact using circular hitboxes and a nearest-image
   (wrap-around) test;
3. records the contacts on the bodies;
4. updates every body, which moves it and wraps it back into the playfield.

Around this core sit several smaller pieces:

- the ship's energy machines: the gun cooldown, the boost latch and the two revisions of
  the ship controller;
- the rock outlines;
- the geometry the renderer uploads: the polygon vertex buffer and the model matrix;
- the projection, scale, translate and rotate matrix builders.

The model is written with pure functions over immutable datatypes:

- `f32` values are `real`.
- `sin`, `cos` and `sqrt` are passed in as functions (the `RealMath.Trig` record). A property
  that needs a law about them (the square-root law, `sin² + cos² = 1`, the values at 0)
  takes that law as a precondition.
- The `Weak` ship handle is an `Option` of the ship's pose.
- Mutating methods return their new state together with their result.
- Panics and divisions that `f32` would turn into infinities are `None` results.

Modules follow the source files:

| module | file |
|---|---|
| `Foreground` | `src/foreground.rs` |
| `Collisions` | `src/collision.rs` |
| `Shape` | `src/rock/shape.rs` |
| `LegacyShape` | `src/rock_shape.rs` |
| `Rocks` | `src/rock/rock.rs` |
| `Bullets` | `src/bullet.rs` |
| `Ships` | the bullet both controllers build |
| `Boost` | `src/ship/boost.rs` |
| `Gun` | `src/ship/gun.rs` |
| `Controller` | `src/ship/controller.rs` |
| `LegacyController` | `src/ship_controller.rs` |
| `Frame` | the frame closure in `src/run.rs` |
| `RockRenderer` | `src/rock_renderer.rs` |
| `Matrices`, `Orthographic`, `Transform` | `src/matrix/` |

Shared helpers live in `base.dfy`: `Options`, `Vector` and `RealMath`.

Points of the code the model keeps as written:

- **The wrap interval.** `f32mod` tests `0 > x || x > m`, so `x == m` is left where it is:
  the wrap lands in the closed interval `[0, m]`, not the half-open `[0, m)`.
- **Idempotence.** `position_modulo` joins the two axes with a short-circuiting `||`, so y
  is not wrapped in a call that had to wrap x. One call therefore need not land in the
  playfield, and a second call can still move y (`Foreground.PositionModuloNotIdempotent`).
  Two calls always land inside the playfield, and a third changes nothing.
- **The frame loop's API.** The loop in `src/run.rs` was written against an earlier `Rock`
  and `Ship` API whose definitions are not part of this model. From its call sites:
  - `intersects` returns a `bool`;
  - a collision carries only the other body's velocity;
  - `set_collision` takes an `Option<Collision>`.

  `Frame` takes both body types as type parameters. It models `set_collision` as replacing
  the body's single pending collision (see "Left out"). Under that reading, when a rock
  touches several others, only the highest-indexed partner's velocity survives.
- **Transform builders.** `src/matrix/transform.rs` implements a method `matrix`, but the
  `Matrix4x4` trait declares only `into_matrix`, `into_array` and `into_arr2`. The model
  reads each `matrix` as the matrix its builder describes.

## Model

| member | source | states |
|---|---|---|
| Foreground.FlooredRemainder | src/foreground.rs:4 | `x - floor(x/m)·m` lies in `[0, m)`; it lies above `x` when `x < 0` and below `x` when `x > m` |
| Foreground.F32Mod | src/foreground.rs:1-9 | Reports a change exactly when `x < 0` or `x > m`, and then the value really changes. The result lies in `[0, m]`, and in `[0, m)` when wrapped. It differs from `x` by a whole multiple of `m`. |
| Foreground.F32ModIdempotent | src/foreground.rs:1-9 | Applying `f32mod` to its own result changes nothing and reports false |
| Foreground.F32ModKeepsBoundary | src/foreground.rs:3 | `x == m` and `x == 0` are inside: neither is moved or reported |
| Foreground.PositionModulo | src/foreground.rs:11-14 | The flag is true iff the position changed. x ends in `[0, 4]`; both coordinates stay congruent to the input. An out-of-range x leaves y untouched. An in-range x is kept and y is folded into `[0, 3]`. A coordinate that had to be wrapped lands strictly below its period (8 becomes 0, not 4). A position inside the playfield is unchanged. |
| Foreground.PositionModuloTwiceInPlayfield | src/foreground.rs:11-14 | Two successive wraps always land inside the closed playfield |
| Foreground.PositionModuloSettles | src/foreground.rs:11-14 | A third wrap after two changes nothing and reports false |
| Foreground.PositionModuloNotIdempotent | src/foreground.rs:13 | (5, 4) wraps to (1, 4) with y skipped, and a second wrap moves it to (1, 1) |
| Collisions.Image | src/collision.rs:44-53 | The other coordinate is shifted by +period exactly when the offset is below -half, by -period exactly when above +half, and kept exactly when within ±half |
| Collisions.Intersects | src/collision.rs:38-57 | `Some` iff the radius sum exceeds `sqrt` of the squared wrap-adjusted offset. The point returned is the other centre shifted per axis by the `Image` rule: it differs from the other centre by a vector in {-4,0,4}×{-3,0,3}, and is no farther from `self` per axis than the unadjusted centre. |
| Collisions.ImageIsNearest | src/collision.rs:44-53 | The chosen copy is at least as close as each of `b`, `b + period` and `b - period` |
| Collisions.OffsetWithinHalfPeriod | src/collision.rs:44-55 | With both centres in the playfield the adjusted offset is at most 2 in x and 1.5 in y |
| Collisions.OffsetAntisymmetric | src/collision.rs:44-53 | Seen from the other body, the adjusted offset is exactly negated |
| Collisions.IntersectsSymmetric | src/collision.rs:44-56 | Whether two hitboxes intersect does not depend on argument order |
| Collisions.IntersectsBySquares | src/collision.rs:54-56 | For a true square root and a non-negative radius sum, the test is `(r1 + r2)² > dx² + dy²` |
| Collisions.IdenticalCentresIntersect | src/collision.rs:56 | Equal centres with a positive radius sum give `Some(other.position)` |
| Collisions.ContactAcrossEdge | src/collision.rs:44-56 | Radius-0.1 bodies at x = 3.95 and x = 0.05 touch across the edge, answering (4.05, 1) |
| Shape.Sides | src/rock/shape.rs:22-32 | Pentagon, Hexagon, Septagon and Octagon have 5, 6, 7 and 8 sides, and each count belongs to that shape only |
| Shape.Iter | src/rock/shape.rs:34-42 | Four shapes, pairwise distinct, every shape present, the i-th having `5 + i` sides |
| Shape.SidesInjective | src/rock/shape.rs:22-32 | Equal side counts mean equal shapes, and every shape has more than 2 sides |
| Shape.FindAt | src/rock/shape.rs:51-54 | The enumerate/find_map search finds a shape iff the index is within the sequence, and then it is the shape at that position |
| Shape.Sample | src/rock/shape.rs:47-55 | For a drawn index `i < 4` the sampled shape has `5 + i` sides |
| Shape.SampleSearchSucceeds | src/rock/shape.rs:49-54 | The search succeeds exactly for `i < 4` and then returns the i-th shape of `iter`, so the `unwrap` never fails |
| LegacyShape.Sides | src/rock_shape.rs:22-30 | Pentagon, Hexagon, Septagon and Octagon have 5, 6, 7 and 8 sides, and each count belongs to that shape only |
| LegacyShape.Iter | src/rock_shape.rs:32-38 | Four shapes, pairwise distinct, every shape present, the i-th having `5 + i` sides |
| LegacyShape.Sample | src/rock_shape.rs:43-51 | Indices 0-3 pick the i-th shape of `iter`; every index from 3 on picks the octagon |
| LegacyShape.RevisionsAgree | src/rock_shape.rs:20-51 | The variant correspondence keeps side counts, maps one iteration order onto the other, and both samplers agree on every index below 4 |
| Rocks.New | src/rock/rock.rs:61-70 | A new rock has the descriptor's data and an empty inbox |
| Rocks.PushCollision | src/rock/rock.rs:96-99 | The inbox grows by one: earlier entries are kept, the new collision is last, and nothing else changes |
| Rocks.SubtractDeltas | src/rock/rock.rs:78-88 | The fold that subtracts the deltas one after another, in inbox order, equals subtracting their independently defined sum |
| RealMath.Min | src/rock/rock.rs:108 | `f32::min` on ordinary numbers: the result is one of the operands and no greater than either |
| Rocks.Update | src/rock/rock.rs:72-94 | Returns exactly the pending collisions, in order, and leaves an empty inbox. The velocity loses the sum of deltas, each computed against the pre-update rock. The position becomes the wrapped `position + velocity`, with x in `[0, 4]`. Shape and size are kept. |
| Rocks.UpdateWithoutCollisions | src/rock/rock.rs:78-91 | With an empty inbox the velocity is unchanged and the position is the wrapped `position + velocity` |
| Rocks.PushedCollisionsDrainInOrder | src/rock/rock.rs:72-99 | Two pushed collisions come back in push order, and a second update drains nothing |
| Rocks.Hitbox | src/rock/rock.rs:105-115 | Centred on the rock; the radius is the edge-midpoint distance for the shape's side count and the smaller size component |
| Rocks.HitboxRadiusIsApothem | src/rock/rock.rs:101-114 | With true trigonometry the radius is non-negative and `radius² = s²(1 + cos(2π/n))/2`, the polygon's apothem the doc comment promises |
| Rocks.Area | src/rock/rock.rs:117-129 | Defined iff the size is square, and then `sides` times the area of the fan triangle spanned by the corners (s, 0) and (s cos a, s sin a), half their cross product |
| Rocks.Weight | src/rock/rock.rs:131-134 | Defined iff the size is square, and then four times the area |
| Bullets.Update | src/bullet.rs:26-30 | Velocity and size are kept. The position is the wrapped `position + velocity`, with x in `[0, 4]`. A sum inside the playfield is taken as is. Both coordinates stay congruent to the sum. |
| Bullets.CornerCrossingSkipsY | src/bullet.rs:26-30 | A bullet crossing the corner from (3.9, 2.9) lands at (0.1, 3.1), outside in y for one frame |
| Ships.Shoot | src/ship/gun.rs:37-47 | The bullet starts at the nose, `size` ahead of the centre along the heading, and flies along the heading at the given speed, with the given size and countdown |
| Ships.Direction | src/ship/gun.rs:37-38 | The heading `[cos yaw, sin yaw]` is a unit vector whenever `sin² + cos² = 1`, and is (1, 0) at yaw 0 |
| Ships.ShootAtYawZero | src/ship/gun.rs:37-40 | At yaw 0 the bullet flies along +x from `size.x` ahead of the centre |
| Boost.Build | src/ship/boost.rs:1-12 | A fresh boost is neither enabled nor active and keeps the configured numbers |
| Boost.Multiplier | src/ship/boost.rs:29-42 | Yields the multiplier iff active, enabled and `energy > cost`, and then spends exactly `cost`, leaving energy positive. Active and enabled without enough energy disables the boost and keeps the energy. Otherwise nothing changes. |
| Boost.Set | src/ship/boost.rs:45-51 | `active` becomes the button state. An enabled boost stays enabled; a disabled one becomes enabled iff the button is released. |
| Boost.LatchReleasedOnlyByRelease | src/ship/boost.rs:21-51 | A disabled boost stays disabled under `set(true)`; `set(false)` re-enables it, and a later press finds it enabled and active |
| Boost.FreshBoostNeedsRelease | src/ship/boost.rs:7-51 | On a fresh boost, pressing and asking for the multiplier yields nothing and spends nothing |
| Boost.ExhaustedBoostStaysOff | src/ship/boost.rs:21-51 | After running out, holding the button yields nothing and spends nothing, whatever the energy has become |
| Gun.Build | src/ship/gun.rs:12-22 | A fresh gun has no cooldown running and keeps the configured numbers |
| Gun.Fire | src/ship/gun.rs:31-54 | Fires iff `energy > cost` and no cooldown runs. A shot spends exactly the cost (energy stays positive) and starts a `period` cooldown. Its bullet has countdown `bullet_duration`, size (0.075, 0.0125), a start at the nose (`size` ahead of the centre along the heading) and velocity along the heading. A failed fire changes nothing. |
| Gun.Update | src/ship/gun.rs:56-61 | The cooldown drops by one, stopping at zero; nothing else changes |
| Gun.CooldownBlocksFiring | src/ship/gun.rs:31-61 | While `c` frames of cooldown remain, fewer than `c` frames of update-then-fire fire nothing, spend nothing and leave `c - frames` |
| Gun.NoShotDuringPeriod | src/ship/gun.rs:31-61 | After a shot with period `p`, the next `p - 1` update-then-fire frames produce no bullet |
| Controller.Build | src/ship/controller.rs:15-32 | A new controller has full energy, multiplier 1 and the configured parts |
| Controller.ThrustForward | src/ship/controller.rs:41-47 | No command when the ship is gone; otherwise forward acceleration times the boost multiplier |
| Controller.ThrustBackwards | src/ship/controller.rs:49-55 | No command when the ship is gone; otherwise the negated backward acceleration times the boost multiplier |
| Controller.SteerCounterClockwise | src/ship/controller.rs:57-63 | No command when the ship is gone; otherwise the yaw acceleration, unboosted |
| Controller.SteerClockwise | src/ship/controller.rs:65-71 | No command when the ship is gone; otherwise the negated yaw acceleration, unboosted |
| Controller.ThrustDirectionsOppose | src/ship/controller.rs:41-71 | With equal accelerations the two thrusts, and the two steers, are opposite |
| Controller.FireBullet | src/ship/controller.rs:73-79 | A bullet iff the ship exists, the energy exceeds the gun's cost and no cooldown runs. A shot pays from the controller's energy and starts the gun's cooldown, and the bullet is the one the gun fires. Otherwise nothing changes. |
| Controller.SetBoost | src/ship/controller.rs:81-85 | Pressing with an enabled boost and enough energy stores the boost's multiplier and spends its cost. Every other case stores 1 and keeps the energy. Running out or starting disabled leaves the boost disabled; releasing enables it. The boost's own multiplier and cost never change. |
| Controller.Update | src/ship/controller.rs:87-93 | Energy below the maximum becomes `min(energy + regen, max)`, and energy at or above it is kept, so the maximum is never exceeded. The gun's cooldown advances. |
| Controller.EnergyStaysInRange | src/ship/controller.rs:73-93 | Over any sequence of fire, boost and update calls, energy stays within `[0, max]` when costs and regeneration are non-negative |
| Controller.BuiltControllerIsInRange | src/ship/controller.rs:27-28 | A new controller with sane configuration satisfies that energy invariant |
| LegacyController.Build | src/ship_controller.rs:17-42 | No cooldown, empty boost store and boost off; the configured numbers are kept |
| LegacyController.ThrustMultiplier | src/ship_controller.rs:133-136 | The configured multiplier iff the boost is on |
| LegacyController.ThrustForward | src/ship_controller.rs:51-58 | No command when the ship is gone; otherwise forward acceleration, times the multiplier only while boosting |
| LegacyController.ThrustBackwards | src/ship_controller.rs:60-67 | No command when the ship is gone; otherwise negated backward acceleration, times the multiplier only while boosting |
| LegacyController.SteerCounterClockwise | src/ship_controller.rs:69-75 | No command when the ship is gone; otherwise the yaw acceleration |
| LegacyController.SteerClockwise | src/ship_controller.rs:77-83 | No command when the ship is gone; otherwise the negated yaw acceleration |
| LegacyController.FireBullet | src/ship_controller.rs:85-110 | A bullet iff no cooldown runs and the ship exists. The cooldown restarts only then. The bullet has countdown `bullet_duration`, size (0.075, 0.0075) and starts at the nose along the heading. Otherwise nothing changes. |
| LegacyController.SetBoost | src/ship_controller.rs:112-120 | Pressing spends the cost, clamped at 0, and the boost is on iff energy is left. Releasing turns it off and keeps the energy. |
| LegacyController.Max | src/ship_controller.rs:115 | `f32::max` on ordinary numbers: the result is one of the operands and no less than either |
| LegacyController.Update | src/ship_controller.rs:122-131 | The cooldown drops by one, stopping at zero. The store gains one regeneration step iff the boost is off and below the maximum. |
| LegacyController.EnergyStaysInRange | src/ship_controller.rs:112-131 | Over any sequence of calls the store stays in `[0, max + regen)`: never negative, and over the maximum by less than one step |
| LegacyController.BuiltControllerIsInRange | src/ship_controller.rs:37-41 | A new controller with positive regeneration satisfies that invariant |
| LegacyController.PressingWithLittleEnergyDoesNotBoost | src/ship_controller.rs:112-120 | Pressing with at most one cost in store empties it and the thrust is not multiplied |
| LegacyController.CooldownBlocksFiring | src/ship_controller.rs:85-126 | While the countdown exceeds `k`, `k` updates leave it `k` lower and firing still yields nothing |
| Frame.KeyCommand | src/run.rs:171-179 | A command iff the key is one of w, a, s, d: w thrusts by 0.0025, s by -0.0015, a turns by π/77 and d by -π/77 |
| Frame.TurnKeysOppose | src/run.rs:174-176 | `a` and `d` ask for opposite yaw accelerations, `a` the positive one |
| Frame.InputCommands | src/run.rs:171-179 | At most one command per key. One per key when all keys are w, a, s or d; none when no key is. Every command is the command of some held key. |
| Frame.InputCommandsOfOneKey | src/run.rs:171-179 | One held key gives exactly its own command, or nothing for an unbound key; with `InputCommandsAppend` this fixes the whole command list |
| Frame.InputCommandsAppend | src/run.rs:171-179 | The commands of two key groups are those of the first followed by those of the second |
| Frame.ApplyKeys | src/run.rs:171-179 | Applying the keys is applying their commands to the ship in key order |
| Frame.PartnersFrom | src/run.rs:190-196 | From index `j` on, exactly the other rocks the rock touches, ascending |
| Frame.Partners | src/run.rs:187-197 | `m` is listed iff `m` is another rock the rock touches; the list is ascending |
| Frame.NoPartnersIffUntouched | src/run.rs:187-197 | A rock's partner list is empty iff it touches no other rock |
| Frame.CollisionMap | src/run.rs:184-199 | One entry per rock. `j` is in entry `i` iff `j ≠ i` and rock `i` touches rock `j`. Each entry is ascending and never contains its own rock. |
| Frame.Deliver | src/run.rs:202-206 | Only rock `i` changes; it ends with the last partner's velocity, or unchanged without partners |
| Frame.DeliverAll | src/run.rs:201-207 | The outer loop over the map keys: a rock whose index is never visited, or whose partner list is empty, keeps its pending collision |
| Frame.DeliverAllResult | src/run.rs:201-207 | Visiting each rock at most once in any order: a visited rock with partners ends with its last partner's velocity, and every other rock keeps its pending collision |
| Frame.RecordRockCollisions | src/run.rs:184-207 | For any hash-map order, a rock ends with the velocity of the highest-indexed rock it touches, read before any update; a rock touching none keeps its pending collision |
| Frame.RecordShipCollision | src/run.rs:212-217 | The ship gets a zero-velocity collision iff some rock touches it; otherwise it keeps its pending one |
| Frame.Step | src/run.rs:171-223 | Input is applied first. Rock contacts are found on the pre-update rocks; rock `i` is updated with its last partner's velocity or its old pending collision. The ship is tested after steering and updated with a zero collision iff some rock touches it. |
| RockRenderer.Xyz | src/rock_renderer.rs:158-161 | `xyz` gives one vertex: exactly three floats, x, y and z in that order |
| RockRenderer.Ring | src/rock_renderer.rs:148-151 | `3·count` floats whose vertex `k` is `(cos(k·2π/n), sin(k·2π/n), 0)` |
| RockRenderer.PolygonVertices | src/rock_renderer.rs:140-161 | `None` iff `n ≤ 2`. Otherwise `3(n + 2)` floats: first the origin, then corners 0 to `n - 1`, then (1, 0, 0); every z is 0. |
| RockRenderer.FanIsClosed | src/rock_renderer.rs:146-152 | When angle 0 maps to (1, 0), the closing vertex equals the first corner |
| RockRenderer.DrawCountMatchesBuffer | src/rock_renderer.rs:101-105 | Every shape's buffer exists (the `unwrap` cannot fail) and holds exactly `sides + 2` vertices, the count drawn |
| RockRenderer.EveryShapeHasABuffer | src/rock_renderer.rs:39-47 | The constructor builds a buffer for every shape `iter` yields, and `iter` yields every shape |
| RockRenderer.ModelMatrix | src/rock_renderer.rs:70-91 | The literal scale-times-translation matrix equals the product of the scale and translate builders' matrices |
| RockRenderer.ModelMatrixPlacesVertex | src/rock_renderer.rs:70-91 | A polygon vertex `(x, y)` lands at `(x·size.x + pos.x, y·size.y + pos.y)` |
| RockRenderer.CentreLandsOnPosition | src/rock_renderer.rs:70-91 | The fan centre lands on the rock's position |
| Matrices.ApplyIdentity | src/matrix/matrix.rs:36-47 | The identity leaves every vector unchanged |
| Orthographic.Build | src/matrix/orthographic.rs:22-31 | Each unset range becomes `-1..1`; each set range is kept |
| Orthographic.IntoMatrix | src/matrix/orthographic.rs:33-53 | Defined iff neither range has zero width (`start == end`); a reversed range still gives a matrix. The z row is the identity's, and the other rows are zero off the diagonal except for the offsets in the last row. Each axis's diagonal entry is `2 / (end - start)` and its offset `-(end + start) / (end - start)`. |
| Orthographic.BuilderIntoMatrix | src/matrix/orthographic.rs:55-61 | Equals `build().into_matrix()`. A set range gives its own scale and offset entries; an unset one gives scale 1 and offset 0, so the default builder gives the identity. The matrix exists iff no set range has zero width. |
| Orthographic.DefaultIsIdentity | src/matrix/orthographic.rs:24-52 | Default ranges give the identity |
| Orthographic.AxisEnds | src/matrix/orthographic.rs:41-51 | On one axis, `min` maps to -1 and `max` to +1 |
| Orthographic.MapsRangeEnds | src/matrix/orthographic.rs:41-51 | The corner (x_min, y_min) maps to (-1, -1) and (x_max, y_max) to (1, 1); depth is kept |
| Orthographic.KeepsDepth | src/matrix/orthographic.rs:44-50 | Every vector keeps its z and w |
| Transform.Unwrap3Or | src/matrix/transform.rs:6-12 | Each component, independently, is its value when set and the default otherwise |
| Transform.WithVec2 | src/matrix/transform.rs:36-39 | `vec2` sets x and y from the vector and leaves z as it was |
| Transform.ScaleMatrix | src/matrix/transform.rs:44-53 | An unset builder gives the identity. Otherwise the diagonal is `(x, y, z, 1)` with unset factors 1, and zeros elsewhere. |
| Transform.ScaleByVec2 | src/matrix/transform.rs:36-53 | Scaling by a 2D vector puts its components on the diagonal and keeps factor 1 for z |
| Transform.ScaleActs | src/matrix/transform.rs:44-53 | A point's coordinates are multiplied by the factors |
| Transform.TranslateMatrix | src/matrix/transform.rs:86-95 | An unset builder gives the identity. Otherwise the last row is `(x, y, z, 1)` with unset offsets 0, and the rest is the identity. |
| Transform.TranslationByVec2 | src/matrix/transform.rs:78-95 | Translating by a 2D vector puts it in the last row with z offset 0 |
| Transform.TranslateActs | src/matrix/transform.rs:86-95 | Points move by the offsets; directions (w = 0) are unchanged |
| Transform.TranslationsCompose | src/matrix/transform.rs:86-95 | Two translations multiply to the translation by the summed vector |
| Transform.RotateMatrix | src/matrix/transform.rs:117-132 | No angle gives the identity. An angle gives the top-left block `[[c, s], [-s, c]]` and the identity elsewhere. |
| Transform.RotationPreservesLength | src/matrix/transform.rs:119-127 | With `sin² + cos² = 1`, rotation keeps `x² + y²`, z and w |
| Transform.RotateByZero | src/matrix/transform.rs:117-131 | With cos 0 = 1 and sin 0 = 0, rotating by 0 equals not rotating |

## Left out

- Foreground.F32Mod: requires `m > 0`. The game only calls it with 4 and 3; for `m ≤ 0`, `f32` division would give infinities or NaN.
- Orthographic.IntoMatrix: a zero-width range (`start == end`) gives `None` instead of the `f32` matrix of infinities and NaNs that division by zero produces.
- Rocks.Area: the panic on non-square sizes is the `None` result.
- `f32` arithmetic:
  - all numbers are exact reals;
  - IEEE-754 rounding, infinities, NaN and `powi` rounding are not modelled;
  - `sin`, `cos` and `sqrt` are arbitrary functions passed in, constrained only by each lemma's stated laws.
- `u32` counters are `nat`. Every decrement in the source is guarded, so no wrap-around can happen.
- The `ElasticCollision` resolver is not part of this model. `Rocks.Update` takes the per-collision velocity delta as a function parameter.
- The `Ship` type (`src/ship/ship.rs`) is not part of this model:
  - the controllers see it as a pose (position, size, yaw);
  - they emit acceleration commands to it;
  - a dropped ship is `None`;
  - `Rc`, `RefCell` and `Weak` are not modelled.
- Bullets:
  - the later `Bullet` builder's `countdown` field is carried in `Bullets.BulletDescriptor`;
  - bullet expiry is not part of the model.
- Frame.RecordRockCollisions: the earlier `Rock::set_collision` is not part of this model; it is modelled as replacing a single pending `Option<Collision>`, so the "highest-indexed partner wins" result rests on that reading of the setter.
- The earlier-revision `Rock` and `Ship` used by the frame loop are not part of this model:
  - their contact tests, velocity getter, acceleration and `update` are parameters of `Frame.Step`;
  - the pending-collision fields after the frame are not modelled.
- Frame order:
  - `HashMap` iteration order is an arbitrary permutation given as input;
  - the set of held keys is given as a sequence.
- Random number generation:
  - the index `gen_range` draws is a parameter of `Shape.Sample` and `LegacyShape.Sample`;
  - rock spawning is not modelled.
- All WebGL calls are not modelled: program and shader setup, buffer upload, uniforms and `draw_arrays` itself. The renderer model keeps only the vertex data, the draw count and the model matrix.
- The DOM, mouse and keyboard wiring, the animation-frame loop, rendering, and everything in `src/run.rs` outside the frame's input, discovery and update steps are not modelled.
- The `mem::transmute` defaults of `Matrix4x4` are memory reinterpretation. Only `Id` is modelled, as the identity.

=== FILE: base.dfy ===
/** The optional value the game code returns from fallible operations (Rust's `Option`). */
module Options {

  datatype Option<+T> = None | Some(value: T) {

    /** The wrapped value, or `default` when there is none (Rust's `unwrap_or`). */
    function UnwrapOr(default: T): (r: T)
      ensures Some? ==> r == value
      ensures None? ==> r == default
    {
      match this
      case Some(v) => v
      case None => default
    }
  }
}

/** Two-component vectors of the playfield, the `[f32; 2]` arrays of the game (the vecmath helpers). */
module Vector {

  datatype Vec2 = Vec2(x: real, y: real)

  const Zero: Vec2 := Vec2(0.0, 0.0)

  function Add(a: Vec2, b: Vec2): Vec2 {
    Vec2(a.x + b.x, a.y + b.y)
  }

  function Sub(a: Vec2, b: Vec2): Vec2 {
    Vec2(a.x - b.x, a.y - b.y)
  }

  /** Component-wise product (`vec2_mul`). */
  function Mul(a: Vec2, b: Vec2): Vec2 {
    Vec2(a.x * b.x, a.y * b.y)
  }

  function Scale(a: Vec2, s: real): Vec2 {
    Vec2(a.x * s, a.y * s)
  }
}

/**
 * The real-number stand-ins for `f32` transcendental functions. The game calls `sin`,
 * `cos` and `sqrt` from the platform; here they are passed in as functions, and each
 * property that needs a fact about them states that fact as a precondition.
 */
module RealMath {

  /** `std::f32::consts::PI` to the precision an `f32` carries. */
  const Pi: real := 3.1415927

  datatype Trig = Trig(sin: real -> real, cos: real -> real, sqrt: real -> real)

  function Square(a: real): real {
    a * a
  }

  /** The smaller of two numbers, as `f32::min` gives it for non-NaN operands. */
  function Min(a: real, b: real): (r: real)
    ensures r <= a && r <= b
    ensures r == a || r == b
  {
    if a < b then a else b
  }

  /** `sqrt` is the non-negative square root on the non-negative reals. */
  ghost predicate SqrtLaw(sqrt: real -> real) {
    forall x: real :: 0.0 <= x ==> 0.0 <= sqrt(x) && Square(sqrt(x)) == x
  }

  /** The angle 0 maps to the point (1, 0) of the unit circle. */
  ghost predicate AtZero(t: Trig) {
    t.sin(0.0) == 0.0 && t.cos(0.0) == 1.0
  }

  /** Every angle maps onto the unit circle. */
  ghost predicate Pythagorean(t: Trig) {
    forall a: real :: t.sin(a) * t.sin(a) + t.cos(a) * t.cos(a) == 1.0
  }

  /** A positive number has a positive square. */
  lemma PositiveSquare(a: real)
    requires a > 0.0
    ensures Square(a) > 0.0
  {
    assert Square(a) / a == a;
  }

  /** Comparing a non-negative length with a square root is comparing squares. */
  lemma SqrtCompare(sqrt: real -> real, r: real, d: real)
    requires SqrtLaw(sqrt)
    requires 0.0 <= r && 0.0 <= d
    ensures r > sqrt(d) <==> Square(r) > d
  {
    var s := sqrt(d);
    assert 0.0 <= s && s * s == d;
    if r > s {
      assert r * r > s * s by {
        assert r * r - s * s == (r - s) * (r + s);
        assert r - s > 0.0 && r + s > 0.0;
        assert (r - s) * (r + s) > 0.0;
      }
    } else {
      assert r * r <= s * s by {
        assert s * s - r * r == (s - r) * (s + r);
        assert (s - r) * (s + r) >= 0.0;
      }
    }
  }
}

=== FILE: boost.dfy ===
/**
 * The ship's boost: a speed multiplier that costs energy every frame it is used and
 * latches off when the energy runs out, until the button is released (src/ship/boost.rs).
 */
module Boost {
  import opened Options

  datatype ShipBoost = ShipBoost(multiplier: real, cost: real, enabled: bool, active: bool)

  /** The builder: the two configured numbers, neither enabled nor active. */
  function Build(multiplier: real, cost: real): (b: ShipBoost)
    ensures !b.enabled && !b.active
    ensures b.multiplier == multiplier && b.cost == cost
  {
    ShipBoost(multiplier, cost, false, false)
  }

  datatype Boosted = Boosted(boost: ShipBoost, energy: real, multiplier: Option<real>)

  /**
   * `multiplier`: an active, enabled boost with more energy than one frame costs pays
   * the cost and yields the multiplier. Without the energy it yields nothing and
   * disables itself, keeping the energy. An inactive or disabled boost changes nothing.
   */
  function Multiplier(b: ShipBoost, energy: real): (r: Boosted)
    ensures r.multiplier.Some? <==> b.active && b.enabled && energy > b.cost
    ensures r.multiplier.Some? ==>
      r.multiplier.value == b.multiplier && r.energy == energy - b.cost && r.boost == b
    ensures r.multiplier.Some? ==> r.energy > 0.0
    ensures b.active && b.enabled && energy <= b.cost ==>
      r.boost == b.(enabled := false) && r.energy == energy
    ensures !(b.active && b.enabled) ==> r == Boosted(b, energy, None)
  {
    if b.active && b.enabled then
      if energy > b.cost then Boosted(b, energy - b.cost, Some(b.multiplier))
      else Boosted(b.(enabled := false), energy, None)
    else
      Boosted(b, energy, None)
  }

  /**
   * `set`: records whether the button is held. It never disables an enabled boost; a
   * disabled one becomes enabled exactly when the button is released.
   */
  function Set(b: ShipBoost, state: bool): (r: ShipBoost)
    ensures r.active == state
    ensures b.enabled ==> r.enabled
    ensures !b.enabled ==> (r.enabled <==> !state)
    ensures r.multiplier == b.multiplier && r.cost == b.cost
  {
    var b' := b.(active := state);
    if !b.enabled then b'.(enabled := !state) else b'
  }

  /** Holding the button keeps a disabled boost disabled; releasing it re-enables it. */
  lemma LatchReleasedOnlyByRelease(b: ShipBoost)
    requires !b.enabled
    ensures !Set(b, true).enabled
    ensures Set(b, false).enabled
    ensures Set(Set(b, false), true).enabled && Set(Set(b, false), true).active
  {
  }

  /** A freshly built boost does nothing on the first press: it waits for a release. */
  lemma FreshBoostNeedsRelease(multiplier: real, cost: real, energy: real)
    ensures Multiplier(Set(Build(multiplier, cost), true), energy) == Boosted(Set(Build(multiplier, cost), true), energy, None)
  {
  }

  /**
   * Running out latches: once `multiplier` fails for lack of energy, holding the button
   * (any number of further `set(true)` and `multiplier` calls, here one of each) spends
   * nothing and yields nothing, whatever the energy has become.
   */
  lemma ExhaustedBoostStaysOff(b: ShipBoost, energy: real, later: real)
    requires b.active && b.enabled && energy <= b.cost
    ensures var off := Multiplier(b, energy).boost;
      !off.enabled
      && Multiplier(Set(off, true), later) == Boosted(Set(off, true), later, None)
  {
  }
}

=== FILE: bullet.dfy ===
/** Bullets: small bodies that move in a straight line over the torus (src/bullet.rs). */
module Bullets {
  import opened Vector
  import Foreground

  datatype Bullet = Bullet(position: Vec2, velocity: Vec2, size: Vec2)

  /**
   * The builder fields the ship's gun and controller fill in. They come from a later
   * revision of `Bullet` than src/bullet.rs, which also sets a lifetime `countdown`
   * (in frames).
   */
  datatype BulletDescriptor = BulletDescriptor(position: Vec2, velocity: Vec2, size: Vec2, countdown: nat)

  /**
   * `Bullet::update`: one step along the velocity, then the wrap. Only the position
   * changes; x always ends in `[0, 4]`, and a step that stays inside the playfield is
   * taken as is.
   */
  function Update(b: Bullet): (r: Bullet)
    ensures r.velocity == b.velocity && r.size == b.size
    ensures r.position == Foreground.PositionModulo(Add(b.position, b.velocity)).0
    ensures 0.0 <= r.position.x <= Foreground.Width
    ensures Foreground.InPlayfield(Add(b.position, b.velocity)) ==> r.position == Add(b.position, b.velocity)
    ensures Foreground.Congruent(r.position.x, b.position.x + b.velocity.x, Foreground.Width)
    ensures Foreground.Congruent(r.position.y, b.position.y + b.velocity.y, Foreground.Height)
  {
    b.(position := Foreground.PositionModulo(Add(b.position, b.velocity)).0)
  }

  /**
   * Crossing a corner leaves the bullet outside vertically for one frame: x wraps from
   * 4.1 to 0.1, so y = 3.1 is not folded back.
   */
  lemma CornerCrossingSkipsY()
    ensures Update(Bullet(Vec2(3.9, 2.9), Vec2(0.2, 0.2), Vec2(0.075, 0.0125))).position == Vec2(0.1, 3.1)
  {
    assert (4.1 / Foreground.Width).Floor == 1;
  }
}

=== FILE: collision.dfy ===
/**
 * Circular hitboxes on the torus and the collision record passed between bodies
 * (src/collision.rs).
 */
module Collisions {
  import opened Options
  import opened Vector
  import opened RealMath
  import Foreground

  /** What a body is told about the other body of a detected overlap. */
  datatype Collision = Collision(otherPosition: Vec2, otherVelocity: Vec2, otherWeight: real)

  datatype CircularHitbox = CircularHitbox(position: Vec2, radius: real)

  function Abs(a: real): real {
    if a < 0.0 then -a else a
  }

  /**
   * The copy of coordinate `b` that the intersection test compares with `a`: shifted by
   * one `period` towards `a` when it lies more than `half` away, otherwise `b` itself.
   */
  function Image(a: real, b: real, half: real, period: real): (r: real)
    requires 0.0 < half && period == 2.0 * half
    ensures r - b == period <==> b - a < -half
    ensures r - b == -period <==> b - a > half
    ensures r == b <==> -half <= b - a <= half
  {
    if b - a < -half then b + period
    else if b - a > half then b - period
    else b
  }

  /** The wrap-adjusted position of `other` as seen from `self`. */
  function NearestImage(self: CircularHitbox, other: CircularHitbox): Vec2 {
    Vec2(Image(self.position.x, other.position.x, 2.0, 4.0),
         Image(self.position.y, other.position.y, 1.5, 3.0))
  }

  /** Squared length of the offset from `self` to the nearest image of `other`. */
  function SquaredOffset(self: CircularHitbox, other: CircularHitbox): real {
    var d := Sub(NearestImage(self, other), self.position);
    Square(d.x) + Square(d.y)
  }

  /** The other centre moved by a whole number of playfield periods in {-1, 0, 1} per axis. */
  predicate IsPeriodicImage(p: Vec2, q: Vec2) {
    && (p.x - q.x == -4.0 || p.x == q.x || p.x - q.x == 4.0)
    && (p.y - q.y == -3.0 || p.y == q.y || p.y - q.y == 3.0)
  }

  /**
   * `CircularHitbox::intersects`: overlapping circles (strictly closer than the radius
   * sum) answer with the wrap-adjusted position of the other centre.
   */
  function Intersects(sqrt: real -> real, self: CircularHitbox, other: CircularHitbox): (r: Option<Vec2>)
    ensures r.Some? <==> self.radius + other.radius > sqrt(SquaredOffset(self, other))
    ensures r.Some? ==> r.value == NearestImage(self, other)
    ensures r.Some? ==> IsPeriodicImage(r.value, other.position)
    ensures r.Some? ==> Abs(r.value.x - self.position.x) <= Abs(other.position.x - self.position.x)
    ensures r.Some? ==> Abs(r.value.y - self.position.y) <= Abs(other.position.y - self.position.y)
  {
    var x2 := Image(self.position.x, other.position.x, 2.0, 4.0);
    var y2 := Image(self.position.y, other.position.y, 1.5, 3.0);
    var x := x2 - self.position.x;
    var y := y2 - self.position.y;
    if self.radius + other.radius > sqrt(Square(x) + Square(y)) then Some(Vec2(x2, y2)) else None
  }

  /**
   * The chosen copy is the closest of the three candidates `b - period`, `b` and
   * `b + period`: the test is a nearest-image test.
   */
  lemma ImageIsNearest(a: real, b: real, half: real, period: real)
    requires 0.0 < half && period == 2.0 * half
    ensures Abs(Image(a, b, half, period) - a) <= Abs(b - a)
    ensures Abs(Image(a, b, half, period) - a) <= Abs(b + period - a)
    ensures Abs(Image(a, b, half, period) - a) <= Abs(b - period - a)
  {
  }

  /** Inside the playfield the adjusted offset is at most half a period on each axis. */
  lemma OffsetWithinHalfPeriod(self: CircularHitbox, other: CircularHitbox)
    requires Foreground.InPlayfield(self.position) && Foreground.InPlayfield(other.position)
    ensures Abs(NearestImage(self, other).x - self.position.x) <= 2.0
    ensures Abs(NearestImage(self, other).y - self.position.y) <= 1.5
  {
  }

  /** Seen from the other side, the adjusted offset is exactly the negated one. */
  lemma OffsetAntisymmetric(a: real, b: real, half: real, period: real)
    requires 0.0 < half && period == 2.0 * half
    ensures Image(b, a, half, period) - b == -(Image(a, b, half, period) - a)
  {
  }

  /** Whether two hitboxes intersect does not depend on which one asks. */
  lemma IntersectsSymmetric(sqrt: real -> real, h1: CircularHitbox, h2: CircularHitbox)
    ensures Intersects(sqrt, h1, h2).Some? <==> Intersects(sqrt, h2, h1).Some?
  {
    OffsetAntisymmetric(h1.position.x, h2.position.x, 2.0, 4.0);
    OffsetAntisymmetric(h1.position.y, h2.position.y, 1.5, 3.0);
    assert SquaredOffset(h1, h2) == SquaredOffset(h2, h1);
  }

  /** With a real square root and a non-negative radius sum the test compares squares. */
  lemma IntersectsBySquares(sqrt: real -> real, self: CircularHitbox, other: CircularHitbox)
    requires SqrtLaw(sqrt)
    requires self.radius + other.radius >= 0.0
    ensures Intersects(sqrt, self, other).Some?
        <==> Square(self.radius + other.radius) > SquaredOffset(self, other)
  {
    SqrtCompare(sqrt, self.radius + other.radius, SquaredOffset(self, other));
  }

  /** Coinciding centres with a positive radius sum intersect, at the other centre itself. */
  lemma IdenticalCentresIntersect(sqrt: real -> real, self: CircularHitbox, other: CircularHitbox)
    requires SqrtLaw(sqrt)
    requires self.position == other.position
    requires self.radius + other.radius > 0.0
    ensures Intersects(sqrt, self, other) == Some(other.position)
  {
    assert SquaredOffset(self, other) == 0.0;
    var r := self.radius + other.radius;
    var d := SquaredOffset(self, other);
    PositiveSquare(r);
    SqrtCompare(sqrt, r, d);
    assert r > sqrt(d);
    assert NearestImage(self, other) == other.position;
  }

  /**
   * Two bodies of radius 0.1 at x = 3.95 and x = 0.05 touch across the right edge: the
   * wrapped distance is 0.1 although the unwrapped one is 3.9.
   */
  lemma ContactAcrossEdge(sqrt: real -> real)
    requires SqrtLaw(sqrt)
    ensures Intersects(sqrt, CircularHitbox(Vec2(3.95, 1.0), 0.1), CircularHitbox(Vec2(0.05, 1.0), 0.1))
         == Some(Vec2(4.05, 1.0))
  {
    var a := CircularHitbox(Vec2(3.95, 1.0), 0.1);
    var b := CircularHitbox(Vec2(0.05, 1.0), 0.1);
    assert SquaredOffset(a, b) == 0.01;
    IntersectsBySquares(sqrt, a, b);
  }
}

=== FILE: controller.dfy ===
/**
 * The ship controller: turns player intents into ship commands and bullets, and
 * manages the energy the boost and the gun draw on (src/ship/controller.rs).
 * The controller holds only a weak reference to the ship; each operation receives the
 * result of upgrading it, `None` once the ship is gone.
 */
module Controller {
  import opened Options
  import opened Vector
  import opened RealMath
  import Bullets
  import Ships
  import Boost
  import Gun

  datatype ShipController = ShipController(
    forwardAcceleration: real,
    backwardAcceleration: real,
    yawAcceleration: real,
    energyMax: real,
    energyRegeneracy: real,
    boost: Boost.ShipBoost,
    gun: Gun.ShipGun,
    energy: real,
    boostMultiplier: real)

  /** The builder: the configured parts, a full energy store and no boost in effect. */
  function Build(
    forwardAcceleration: real, backwardAcceleration: real, yawAcceleration: real,
    energyMax: real, energyRegeneracy: real, boost: Boost.ShipBoost, gun: Gun.ShipGun): (c: ShipController)
    ensures c.energy == energyMax && c.boostMultiplier == 1.0
    ensures c.boost == boost && c.gun == gun && c.energyMax == energyMax
    ensures c.energyRegeneracy == energyRegeneracy && c.forwardAcceleration == forwardAcceleration
    ensures c.backwardAcceleration == backwardAcceleration && c.yawAcceleration == yawAcceleration
  {
    ShipController(forwardAcceleration, backwardAcceleration, yawAcceleration,
                   energyMax, energyRegeneracy, boost, gun, energyMax, 1.0)
  }

  /** `thrust_forward`: the forward acceleration, scaled by the boost in effect. */
  function ThrustForward(c: ShipController, ship: Option<Ships.ShipPose>): (cmd: Option<Ships.Command>)
    ensures cmd.Some? <==> ship.Some?
    ensures cmd.Some? ==> cmd.value == Ships.AccelerateForward(c.forwardAcceleration * c.boostMultiplier)
  {
    if ship.Some? then Some(Ships.AccelerateForward(c.forwardAcceleration * c.boostMultiplier)) else None
  }

  /** `thrust_backwards`: the backward acceleration, negated and scaled by the boost in effect. */
  function ThrustBackwards(c: ShipController, ship: Option<Ships.ShipPose>): (cmd: Option<Ships.Command>)
    ensures cmd.Some? <==> ship.Some?
    ensures cmd.Some? ==> cmd.value == Ships.AccelerateForward(-c.backwardAcceleration * c.boostMultiplier)
  {
    if ship.Some? then Some(Ships.AccelerateForward(-c.backwardAcceleration * c.boostMultiplier)) else None
  }

  /** `steer_counter_clockwise`: the yaw acceleration, never boosted. */
  function SteerCounterClockwise(c: ShipController, ship: Option<Ships.ShipPose>): (cmd: Option<Ships.Command>)
    ensures cmd.Some? <==> ship.Some?
    ensures cmd.Some? ==> cmd.value == Ships.AccelerateYaw(c.yawAcceleration)
  {
    if ship.Some? then Some(Ships.AccelerateYaw(c.yawAcceleration)) else None
  }

  /** `steer_clockwise`: the yaw acceleration negated, never boosted. */
  function SteerClockwise(c: ShipController, ship: Option<Ships.ShipPose>): (cmd: Option<Ships.Command>)
    ensures cmd.Some? <==> ship.Some?
    ensures cmd.Some? ==> cmd.value == Ships.AccelerateYaw(-c.yawAcceleration)
  {
    if ship.Some? then Some(Ships.AccelerateYaw(-c.yawAcceleration)) else None
  }

  /** Thrusting one way and the other with equal accelerations gives opposite commands. */
  lemma ThrustDirectionsOppose(c: ShipController, ship: Ships.ShipPose)
    requires c.forwardAcceleration == c.backwardAcceleration
    ensures ThrustForward(c, Some(ship)).value.amount == -ThrustBackwards(c, Some(ship)).value.amount
    ensures SteerClockwise(c, Some(ship)).value.amount == -SteerCounterClockwise(c, Some(ship)).value.amount
  {
  }

  datatype Shot = Shot(controller: ShipController, bullet: Option<Bullets.BulletDescriptor>)

  /**
   * `fire_bullet`: nothing when the ship is gone; otherwise the gun fires from the
   * controller's energy, which pays for the shot.
   */
  function FireBullet(t: Trig, c: ShipController, ship: Option<Ships.ShipPose>): (r: Shot)
    ensures r.bullet.Some? <==>
      ship.Some? && c.energy > c.gun.energyCost && c.gun.periodCountdown == 0
    ensures r.bullet.Some? ==>
      r.controller == c.(energy := c.energy - c.gun.energyCost, gun := c.gun.(periodCountdown := c.gun.period))
    ensures r.bullet.None? ==> r.controller == c
    ensures ship.Some? ==> r.bullet == Gun.Fire(t, c.gun, c.energy, ship.value).bullet
  {
    if ship.Some? then
      var f := Gun.Fire(t, c.gun, c.energy, ship.value);
      Shot(c.(gun := f.gun, energy := f.energy), f.bullet)
    else
      Shot(c, None)
  }

  /**
   * `set_boost`: records the button state on the boost, then asks it for this frame's
   * multiplier, paying from the controller's energy; no multiplier means 1.
   */
  function SetBoost(c: ShipController, state: bool): (r: ShipController)
    ensures state && c.boost.enabled && c.energy > c.boost.cost ==>
      && r.boostMultiplier == c.boost.multiplier
      && r.energy == c.energy - c.boost.cost
      && r.boost.enabled
    ensures !(state && c.boost.enabled && c.energy > c.boost.cost) ==>
      r.boostMultiplier == 1.0 && r.energy == c.energy
    ensures state && c.boost.enabled && c.energy <= c.boost.cost ==> !r.boost.enabled
    ensures state && !c.boost.enabled ==> !r.boost.enabled
    ensures !state ==> r.boost.enabled
    ensures r.boost.active == state
    ensures r.boost.multiplier == c.boost.multiplier && r.boost.cost == c.boost.cost
    ensures r == c.(boost := r.boost, energy := r.energy, boostMultiplier := r.boostMultiplier)
  {
    var b := Boost.Multiplier(Boost.Set(c.boost, state), c.energy);
    c.(boost := b.boost, energy := b.energy, boostMultiplier := b.multiplier.UnwrapOr(1.0))
  }

  /**
   * `update`: energy below the maximum regenerates, capped at the maximum; the gun's
   * cooldown advances in every case.
   */
  function Update(c: ShipController): (r: ShipController)
    ensures c.energy < c.energyMax ==> r.energy == Min(c.energy + c.energyRegeneracy, c.energyMax)
    ensures c.energy >= c.energyMax ==> r.energy == c.energy
    ensures c.energy <= c.energyMax ==> r.energy <= c.energyMax
    ensures r.gun == Gun.Update(c.gun)
    ensures r == c.(energy := r.energy, gun := r.gun)
  {
    var energy := if c.energy < c.energyMax then Min(c.energy + c.energyRegeneracy, c.energyMax) else c.energy;
    c.(energy := energy, gun := Gun.Update(c.gun))
  }

  /** The operations a frame can apply to the controller. */
  datatype Op = Fire(ship: Option<Ships.ShipPose>) | SetBoostTo(state: bool) | Tick

  function Apply(t: Trig, c: ShipController, op: Op): ShipController {
    match op
    case Fire(ship) => FireBullet(t, c, ship).controller
    case SetBoostTo(state) => SetBoost(c, state)
    case Tick => Update(c)
  }

  function Run(t: Trig, c: ShipController, ops: seq<Op>): ShipController
    decreases |ops|
  {
    if |ops| == 0 then c else Run(t, Apply(t, c, ops[0]), ops[1..])
  }

  /** Energy within `[0, max]`, the configuration the invariant needs, and a sane boost. */
  predicate EnergyInvariant(c: ShipController) {
    && 0.0 <= c.energy <= c.energyMax
    && c.energyRegeneracy >= 0.0
    && c.gun.energyCost >= 0.0
    && c.boost.cost >= 0.0
  }

  /**
   * Whatever the player does, a controller built with non-negative costs and
   * regeneration keeps its energy between 0 and the maximum.
   */
  lemma {:induction false} EnergyStaysInRange(t: Trig, c: ShipController, ops: seq<Op>)
    requires EnergyInvariant(c)
    ensures EnergyInvariant(Run(t, c, ops))
    ensures Run(t, c, ops).energyMax == c.energyMax
    decreases |ops|
  {
    if |ops| > 0 {
      var c' := Apply(t, c, ops[0]);
      assert EnergyInvariant(c') && c'.energyMax == c.energyMax;
      EnergyStaysInRange(t, c', ops[1..]);
    }
  }

  /** A freshly built controller satisfies the invariant when its configuration is sane. */
  lemma BuiltControllerIsInRange(
    forwardAcceleration: real, backwardAcceleration: real, yawAcceleration: real,
    energyMax: real, energyRegeneracy: real, boost: Boost.ShipBoost, gun: Gun.ShipGun)
    requires energyMax >= 0.0 && energyRegeneracy >= 0.0 && gun.energyCost >= 0.0 && boost.cost >= 0.0
    ensures EnergyInvariant(Build(forwardAcceleration, backwardAcceleration, yawAcceleration,
                                  energyMax, energyRegeneracy, boost, gun))
  {
  }
}

=== FILE: foreground.dfy ===
/**
 * The toroidal playfield: positions live in the 4 x 3 rectangle and are folded back
 * into it after every move (src/foreground.rs).
 */
module Foreground {
  import opened Vector

  const Width: real := 4.0
  const Height: real := 3.0

  /** `a` and `b` are the same point of a circle of circumference `m`. */
  ghost predicate Congruent(a: real, b: real, m: real) {
    exists k: int :: a - b == Multiple(k, m)
  }

  function Multiple(k: int, m: real): real {
    k as real * m
  }

  /** The closed rectangle the wrap lands positions in (both far edges included). */
  predicate InPlayfield(p: Vec2) {
    0.0 <= p.x <= Width && 0.0 <= p.y <= Height
  }

  /** Bounds of `x - floor(x/m)*m`, the floored remainder the wrap computes. */
  lemma FlooredRemainder(x: real, m: real)
    requires m > 0.0
    ensures var r := x - (x / m).Floor as real * m;
      0.0 <= r < m
      && (x < 0.0 ==> r > x)
      && (x > m ==> r < x)
  {
    RemainderBounds(x, m);
    if x < 0.0 {
      RemainderBelow(x, m);
    }
    if x > m {
      RemainderAbove(x, m);
    }
  }

  lemma RemainderBounds(x: real, m: real)
    requires m > 0.0
    ensures 0.0 <= x - (x / m).Floor as real * m < m
  {
    var q := x / m;
    assert x == q * m;
    RemainderOfParts(x, q, q.Floor as real, m);
  }

  lemma RemainderOfParts(x: real, q: real, f: real, m: real)
    requires m > 0.0 && x == q * m && f <= q < f + 1.0
    ensures 0.0 <= x - f * m < m
  {
    var d := q - f;
    assert x - f * m == d * m;
    assert m - d * m == (1.0 - d) * m;
    PositiveProduct(1.0 - d, m);
    assert d * m < m;
  }

  lemma PositiveProduct(a: real, b: real)
    requires a > 0.0 && b > 0.0
    ensures a * b > 0.0
  {
  }

  lemma RemainderBelow(x: real, m: real)
    requires m > 0.0 && x < 0.0
    ensures x - (x / m).Floor as real * m > x
  {
    var q := x / m;
    var f := q.Floor as real;
    assert q < 0.0;
    assert f <= -1.0;
    assert f * m <= -m by { assert f * m + m == (f + 1.0) * m; assert (f + 1.0) * m <= 0.0; }
  }

  lemma RemainderAbove(x: real, m: real)
    requires m > 0.0 && x > m
    ensures x - (x / m).Floor as real * m < x
  {
    var q := x / m;
    var f := q.Floor as real;
    assert x / m > m / m;
    assert q > 1.0;
    assert f >= 1.0;
    assert f * m >= m by { assert f * m - m == (f - 1.0) * m; assert (f - 1.0) * m >= 0.0; }
  }

  /**
   * `f32mod`: folds one coordinate into `[0, m]` and reports whether it had to.
   * The guard is strict, so `x == m` counts as inside and is left alone.
   */
  function F32Mod(x: real, m: real): (r: (real, bool))
    requires m > 0.0
    ensures r.1 <==> (x < 0.0 || x > m)
    ensures r.1 <==> r.0 != x
    ensures 0.0 <= r.0 <= m
    ensures r.1 ==> r.0 < m
    ensures Congruent(r.0, x, m)
  {
    if 0.0 > x || x > m then
      var k := (x / m).Floor;
      FlooredRemainder(x, m);
      assert (x - k as real * m) - x == Multiple(-k, m);
      (x - k as real * m, true)
    else
      assert x - x == Multiple(0, m);
      (x, false)
  }

  /** `f32mod` applied to its own result changes nothing. */
  lemma F32ModIdempotent(x: real, m: real)
    requires m > 0.0
    ensures F32Mod(F32Mod(x, m).0, m) == (F32Mod(x, m).0, false)
  {
  }

  /** The boundary value itself is inside: `x == m` is neither moved nor reported. */
  lemma F32ModKeepsBoundary(m: real)
    requires m > 0.0
    ensures F32Mod(m, m) == (m, false)
    ensures F32Mod(0.0, m) == (0.0, false)
  {
  }

  /**
   * `position_modulo`: wraps x into `[0, 4]` and, because `||` short-circuits, wraps y
   * into `[0, 3]` only when x needed no wrapping. The result reports whether anything moved.
   */
  function PositionModulo(p: Vec2): (r: (Vec2, bool))
    ensures r.1 <==> r.0 != p
    ensures 0.0 <= r.0.x <= Width
    ensures Congruent(r.0.x, p.x, Width) && Congruent(r.0.y, p.y, Height)
    ensures (p.x < 0.0 || p.x > Width) ==> r.0.y == p.y
    ensures 0.0 <= p.x <= Width ==> r.0.x == p.x && 0.0 <= r.0.y <= Height
    ensures (p.x < 0.0 || p.x > Width) ==> r.0.x < Width
    ensures 0.0 <= p.x <= Width && (p.y < 0.0 || p.y > Height) ==> r.0.y < Height
    ensures InPlayfield(p) ==> r == (p, false)
  {
    var (x, xWrapped) := F32Mod(p.x, Width);
    if xWrapped then
      assert p.y - p.y == Multiple(0, Height);
      (Vec2(x, p.y), true)
    else
      var (y, yWrapped) := F32Mod(p.y, Height);
      (Vec2(x, y), yWrapped)
  }

  /** Two wraps always land inside the playfield, whatever the first one skipped. */
  lemma PositionModuloTwiceInPlayfield(p: Vec2)
    ensures InPlayfield(PositionModulo(PositionModulo(p).0).0)
  {
  }

  /** After two wraps a third changes nothing: the wrap settles within two calls. */
  lemma PositionModuloSettles(p: Vec2)
    ensures var q := PositionModulo(PositionModulo(p).0).0;
      PositionModulo(q) == (q, false)
  {
  }

  /**
   * The wrap is not idempotent: (5, 4) first becomes (1, 4), with y skipped because x
   * moved, and only the second call brings y to 1.
   */
  lemma PositionModuloNotIdempotent()
    ensures PositionModulo(Vec2(5.0, 4.0)) == (Vec2(1.0, 4.0), true)
    ensures PositionModulo(Vec2(1.0, 4.0)) == (Vec2(1.0, 1.0), true)
  {
    assert (5.0 / Width).Floor == 1;
    assert (4.0 / Height).Floor == 1;
  }
}

=== FILE: frame.dfy ===
/**
 * One frame of the game loop (src/run.rs, the frame closure): keyboard input steers the
 * ship, every rock pair and every ship-rock pair is tested for contact, the contacts are
 * recorded as pending collisions, and only then are the rocks and the ship updated.
 *
 * The loop was written against an earlier revision of `Rock` and `Ship` whose sources
 * are not part of this model: contact is a plain yes/no test, a pending collision carries
 * only the other body's velocity, and `set_collision` is taken to replace the single
 * pending `Option` collision (its body is not part of this model). Both
 * body types are therefore type parameters, and what the loop asks of them (contact
 * tests, velocity, acceleration, update) comes in as a `Rules` record of functions.
 */
module Frame {
  import opened Options
  import opened Vector
  import opened RealMath
  import Ships

  // ---------------------------------------------------------------------------------------
  // Keyboard input.
  // ---------------------------------------------------------------------------------------

  /** The acceleration a held key asks for: w/s thrust, a/d turn, anything else nothing. */
  function KeyCommand(key: char): (cmd: Option<Ships.Command>)
    ensures cmd.Some? <==> key in "wasd"
    ensures key == 'w' || key == 's' ==> cmd.Some? && cmd.value.AccelerateForward?
    ensures key == 'a' || key == 'd' ==> cmd.Some? && cmd.value.AccelerateYaw?
    ensures key == 'w' ==> cmd == Some(Ships.AccelerateForward(0.0025))
    ensures key == 's' ==> cmd == Some(Ships.AccelerateForward(-0.0015))
    ensures key == 'a' ==> cmd == Some(Ships.AccelerateYaw(Pi / 77.0))
    ensures key == 'd' ==> cmd == Some(Ships.AccelerateYaw(-Pi / 77.0))
  {
    match key
    case 'w' => Some(Ships.AccelerateForward(0.0025))
    case 'a' => Some(Ships.AccelerateYaw(Pi / 77.0))
    case 's' => Some(Ships.AccelerateForward(-0.0015))
    case 'd' => Some(Ships.AccelerateYaw(-Pi / 77.0))
    case _ => None
  }

  /** Turning left and turning right ask for opposite yaw accelerations. */
  lemma TurnKeysOppose()
    ensures KeyCommand('a').value.amount == -KeyCommand('d').value.amount
    ensures KeyCommand('a').value.amount > 0.0
  {
  }

  /** The commands the held keys produce, in the order the keys are reported. */
  function InputCommands(keys: seq<char>): (cmds: seq<Ships.Command>)
    ensures |cmds| <= |keys|
    ensures (forall k :: 0 <= k < |keys| ==> keys[k] in "wasd") ==> |cmds| == |keys|
    ensures (forall k :: 0 <= k < |keys| ==> keys[k] !in "wasd") ==> cmds == []
    ensures forall n :: 0 <= n < |cmds| ==> exists k :: 0 <= k < |keys| && KeyCommand(keys[k]) == Some(cmds[n])
    decreases |keys|
  {
    if |keys| == 0 then []
    else
      var prefix := keys[..|keys| - 1];
      var rest := InputCommands(prefix);
      assert forall k :: 0 <= k < |prefix| ==> prefix[k] == keys[k];
      match KeyCommand(keys[|keys| - 1])
      case Some(cmd) => rest + [cmd]
      case None => rest
  }

  /** A single held key gives its own command, or none when the key is not bound. */
  lemma InputCommandsOfOneKey(key: char)
    ensures InputCommands([key]) == if KeyCommand(key).Some? then [KeyCommand(key).value] else []
  {
    assert [key][..0] == [];
  }

  /** Holding two groups of keys gives the commands of the first group, then the second's. */
  lemma {:induction false} InputCommandsAppend(a: seq<char>, b: seq<char>)
    ensures InputCommands(a + b) == InputCommands(a) + InputCommands(b)
    decreases |b|
  {
    if |b| > 0 {
      var b' := b[..|b| - 1];
      assert (a + b)[..|a + b| - 1] == a + b';
      assert (a + b)[|a + b| - 1] == b[|b| - 1];
      InputCommandsAppend(a, b');
    } else {
      assert a + b == a;
    }
  }

  /** The ship after each command has been applied in turn. */
  function ApplyCommands<S>(accelerate: (S, Ships.Command) -> S, ship: S, cmds: seq<Ships.Command>): S
    decreases |cmds|
  {
    if |cmds| == 0 then ship else accelerate(ApplyCommands(accelerate, ship, cmds[..|cmds| - 1]), cmds[|cmds| - 1])
  }

  /** The input loop: each held key that maps to a command is applied to the ship. */
  function ApplyKeys<S>(accelerate: (S, Ships.Command) -> S, ship: S, keys: seq<char>): (r: S)
    ensures r == ApplyCommands(accelerate, ship, InputCommands(keys))
    decreases |keys|
  {
    if |keys| == 0 then ship
    else
      var before := ApplyKeys(accelerate, ship, keys[..|keys| - 1]);
      match KeyCommand(keys[|keys| - 1])
      case Some(cmd) =>
        var rest := InputCommands(keys[..|keys| - 1]);
        assert (rest + [cmd])[..|rest + [cmd]| - 1] == rest;
        accelerate(before, cmd)
      case None => before
  }

  // ---------------------------------------------------------------------------------------
  // Rock-rock contact discovery.
  // ---------------------------------------------------------------------------------------

  predicate Ascending(js: seq<nat>) {
    forall a, b :: 0 <= a < b < |js| ==> js[a] < js[b]
  }

  /** The indices from `j` on of the rocks rock `i` touches, other than `i` itself. */
  function PartnersFrom<R>(hit: (R, R) -> bool, rocks: seq<R>, i: nat, j: nat): (js: seq<nat>)
    requires i < |rocks| && j <= |rocks|
    ensures forall k :: 0 <= k < |js| ==> j <= js[k] < |rocks| && js[k] != i && hit(rocks[i], rocks[js[k]])
    ensures forall m :: j <= m < |rocks| && m != i && hit(rocks[i], rocks[m]) ==> m in js
    ensures Ascending(js)
    decreases |rocks| - j
  {
    if j == |rocks| then []
    else
      var rest := PartnersFrom(hit, rocks, i, j + 1);
      if j != i && hit(rocks[i], rocks[j]) then [j] + rest else rest
  }

  /**
   * Rock `i`'s entry in the collision map: every other rock it touches, by ascending index,
   * and nothing else. In particular a rock is never paired with itself.
   */
  function Partners<R>(hit: (R, R) -> bool, rocks: seq<R>, i: nat): (js: seq<nat>)
    requires i < |rocks|
    ensures forall m :: m in js <==> 0 <= m < |rocks| && m != i && hit(rocks[i], rocks[m])
    ensures Ascending(js)
  {
    PartnersFrom(hit, rocks, i, 0)
  }

  /** A rock has an empty partner list exactly when it touches no other rock. */
  lemma NoPartnersIffUntouched<R>(hit: (R, R) -> bool, rocks: seq<R>, i: nat)
    requires i < |rocks|
    ensures Partners(hit, rocks, i) == [] <==> forall m :: 0 <= m < |rocks| && m != i ==> !hit(rocks[i], rocks[m])
  {
    var js := Partners(hit, rocks, i);
    if js != [] {
      assert js[0] in js;
    }
  }

  /** The collision map: for each rock, its list of partners. */
  function CollisionMap<R>(hit: (R, R) -> bool, rocks: seq<R>): (m: seq<seq<nat>>)
    ensures |m| == |rocks|
    ensures forall i, j :: 0 <= i < |rocks| ==> (j in m[i] <==> 0 <= j < |rocks| && j != i && hit(rocks[i], rocks[j]))
    ensures forall i :: 0 <= i < |rocks| ==> Ascending(m[i]) && i !in m[i]
  {
    seq(|rocks|, i requires 0 <= i < |rocks| => Partners(hit, rocks, i))
  }

  // ---------------------------------------------------------------------------------------
  // Recording the rock collisions.
  // ---------------------------------------------------------------------------------------

  /**
   * The inner loop for rock `i`: each partner in turn replaces rock `i`'s pending
   * collision with the partner's velocity, as `set_collision` is taken to do. Only rock `i` is touched, and the last partner
   * is the one that stays.
   */
  function Deliver(pending: seq<Option<Vec2>>, i: nat, js: seq<nat>, velocities: seq<Vec2>): (p: seq<Option<Vec2>>)
    requires i < |pending|
    requires forall k :: 0 <= k < |js| ==> js[k] < |velocities|
    ensures |p| == |pending|
    ensures forall k :: 0 <= k < |p| && k != i ==> p[k] == pending[k]
    ensures |js| == 0 ==> p[i] == pending[i]
    ensures |js| > 0 ==> p[i] == Some(velocities[js[|js| - 1]])
    decreases |js|
  {
    if |js| == 0 then pending
    else Deliver(pending, i, js[..|js| - 1], velocities)[i := Some(velocities[js[|js| - 1]])]
  }

  predicate Distinct(order: seq<nat>) {
    forall a, b :: 0 <= a < b < |order| ==> order[a] != order[b]
  }

  /** Every index below `n` exactly once, in any order: the order a hash map yields its keys in. */
  predicate IsPermutation(order: seq<nat>, n: nat) {
    && Distinct(order)
    && (forall k :: 0 <= k < |order| ==> order[k] < n)
    && (forall i :: 0 <= i < n ==> i in order)
  }

  predicate WellFormedMap(map_: seq<seq<nat>>, n: nat) {
    forall i, k :: 0 <= i < |map_| && 0 <= k < |map_[i]| ==> map_[i][k] < n
  }

  /** The outer loop: the collision map's entries visited in `order`. */
  function DeliverAll(pending: seq<Option<Vec2>>, map_: seq<seq<nat>>, order: seq<nat>, velocities: seq<Vec2>): (p: seq<Option<Vec2>>)
    requires |map_| == |pending| && WellFormedMap(map_, |velocities|)
    requires forall k :: 0 <= k < |order| ==> order[k] < |pending|
    ensures |p| == |pending|
    ensures forall i :: 0 <= i < |pending| && i !in order ==> p[i] == pending[i]
    ensures forall i :: 0 <= i < |pending| && i in order && map_[i] == [] ==> p[i] == pending[i]
    decreases |order|
  {
    if |order| == 0 then pending
    else
      var i := order[|order| - 1];
      Deliver(DeliverAll(pending, map_, order[..|order| - 1], velocities), i, map_[i], velocities)
  }

  /**
   * Visiting each rock at most once, a visited rock with partners ends with its last
   * partner's velocity; every other rock keeps what it had. The visiting order does not
   * matter, because each visit touches only its own rock.
   */
  lemma {:induction false} DeliverAllResult(
    pending: seq<Option<Vec2>>, map_: seq<seq<nat>>, order: seq<nat>, velocities: seq<Vec2>)
    requires |map_| == |pending| && WellFormedMap(map_, |velocities|)
    requires forall k :: 0 <= k < |order| ==> order[k] < |pending|
    requires Distinct(order)
    ensures forall i :: 0 <= i < |pending| && i in order && |map_[i]| > 0 ==>
      DeliverAll(pending, map_, order, velocities)[i] == Some(velocities[map_[i][|map_[i]| - 1]])
    ensures forall i :: 0 <= i < |pending| && (i !in order || |map_[i]| == 0) ==>
      DeliverAll(pending, map_, order, velocities)[i] == pending[i]
    decreases |order|
  {
    if |order| > 0 {
      var prefix := order[..|order| - 1];
      var o := order[|order| - 1];
      DeliverAllResult(pending, map_, prefix, velocities);
      assert o !in prefix by {
        forall k | 0 <= k < |prefix| ensures prefix[k] != o {
          assert prefix[k] == order[k];
        }
      }
      forall i | 0 <= i < |pending| ensures i in order <==> i in prefix || i == o {
        assert order == prefix + [o];
      }
    }
  }

  /** Every rock's velocity, read once before anything changes. */
  function Velocities<R>(velocity: R -> Vec2, rocks: seq<R>): (v: seq<Vec2>)
    ensures |v| == |rocks| && forall k :: 0 <= k < |rocks| ==> v[k] == velocity(rocks[k])
  {
    seq(|rocks|, k requires 0 <= k < |rocks| => velocity(rocks[k]))
  }

  /** `j` is the highest-indexed rock that rock `i` touches. */
  predicate LastPartner<R>(hit: (R, R) -> bool, rocks: seq<R>, i: nat, j: nat)
    requires i < |rocks|
  {
    && j < |rocks| && j != i && hit(rocks[i], rocks[j])
    && forall m :: j < m < |rocks| && m != i ==> !hit(rocks[i], rocks[m])
  }

  predicate Untouched<R>(hit: (R, R) -> bool, rocks: seq<R>, i: nat)
    requires i < |rocks|
  {
    forall m :: 0 <= m < |rocks| && m != i ==> !hit(rocks[i], rocks[m])
  }

  /** In an ascending list, the last element is the largest. */
  lemma AscendingLastIsMax(js: seq<nat>, k: nat)
    requires Ascending(js) && k < |js|
    ensures js[k] <= js[|js| - 1]
  {
  }

  /**
   * Rock-rock discovery and recording: whatever order the map is walked in, a rock that
   * touches others ends with the velocity of the highest-indexed one as its pending
   * collision, and a rock that touches none keeps the one it had.
   */
  function RecordRockCollisions<R>(
    hit: (R, R) -> bool, velocity: R -> Vec2, rocks: seq<R>, pending: seq<Option<Vec2>>, order: seq<nat>): (p: seq<Option<Vec2>>)
    requires |pending| == |rocks| && IsPermutation(order, |rocks|)
    ensures |p| == |rocks|
    ensures forall i, j :: 0 <= i < |rocks| && 0 <= j && LastPartner(hit, rocks, i, j) ==> p[i] == Some(velocity(rocks[j]))
    ensures forall i :: 0 <= i < |rocks| && Untouched(hit, rocks, i) ==> p[i] == pending[i]
  {
    var map_ := CollisionMap(hit, rocks);
    var velocities := Velocities(velocity, rocks);
    DeliverAllResult(pending, map_, order, velocities);
    var p := DeliverAll(pending, map_, order, velocities);
    assert forall i, j :: 0 <= i < |rocks| && 0 <= j && LastPartner(hit, rocks, i, j) ==> p[i] == Some(velocity(rocks[j])) by {
      forall i, j | 0 <= i < |rocks| && 0 <= j && LastPartner(hit, rocks, i, j) ensures p[i] == Some(velocity(rocks[j])) {
        var js := map_[i];
        assert j in js;
        var k :| 0 <= k < |js| && js[k] == j;
        AscendingLastIsMax(js, k);
        var last := js[|js| - 1];
        assert last in js;
        assert last == j;
      }
    }
    assert forall i :: 0 <= i < |rocks| && Untouched(hit, rocks, i) ==> p[i] == pending[i] by {
      forall i | 0 <= i < |rocks| && Untouched(hit, rocks, i) ensures p[i] == pending[i] {
        NoPartnersIffUntouched(hit, rocks, i);
        assert map_[i] == Partners(hit, rocks, i);
      }
    }
    p
  }

  // ---------------------------------------------------------------------------------------
  // Ship-rock contact.
  // ---------------------------------------------------------------------------------------

  /**
   * The ship loop: every rock the ship touches records a zero-velocity collision on the
   * ship. It ends with a collision exactly when some rock touches it.
   */
  function RecordShipCollision<R>(touches: R -> bool, rocks: seq<R>, pending: Option<Vec2>): (c: Option<Vec2>)
    ensures (exists k :: 0 <= k < |rocks| && touches(rocks[k])) ==> c == Some(Zero)
    ensures (forall k :: 0 <= k < |rocks| ==> !touches(rocks[k])) ==> c == pending
    decreases |rocks|
  {
    if |rocks| == 0 then pending
    else
      var prefix := rocks[..|rocks| - 1];
      var c := RecordShipCollision(touches, prefix, pending);
      assert forall k :: 0 <= k < |prefix| ==> prefix[k] == rocks[k];
      if touches(rocks[|rocks| - 1]) then Some(Zero) else c
  }

  // ---------------------------------------------------------------------------------------
  // The whole frame.
  // ---------------------------------------------------------------------------------------

  /** What the frame asks of the (earlier-revision) rock and ship types. */
  datatype Rules<!R, !S> = Rules(
    accelerate: (S, Ships.Command) -> S,
    rockHit: (R, R) -> bool,
    shipHit: (S, R) -> bool,
    velocity: R -> Vec2,
    updateRock: (R, Option<Vec2>) -> R,
    updateShip: (S, Option<Vec2>) -> S)

  datatype Outcome<R, S> = Outcome(rocks: seq<R>, ship: S)

  /**
   * One frame: input, then all contact discovery on the bodies as they were before any
   * update (the ship already steered), then every rock update, then the ship update.
   * `collisions` and `shipCollision` are the pending collisions the bodies enter the frame
   * with; `order` is the order the collision map yields its entries in.
   */
  function Step<R, S>(
    rules: Rules<R, S>, rocks: seq<R>, collisions: seq<Option<Vec2>>, ship: S, shipCollision: Option<Vec2>,
    keys: seq<char>, order: seq<nat>): (r: Outcome<R, S>)
    requires |collisions| == |rocks| && IsPermutation(order, |rocks|)
    ensures |r.rocks| == |rocks|
    ensures forall i, j :: 0 <= i < |rocks| && 0 <= j && LastPartner(rules.rockHit, rocks, i, j) ==>
      r.rocks[i] == rules.updateRock(rocks[i], Some(rules.velocity(rocks[j])))
    ensures forall i :: 0 <= i < |rocks| && Untouched(rules.rockHit, rocks, i) ==>
      r.rocks[i] == rules.updateRock(rocks[i], collisions[i])
    ensures var steered := ApplyCommands(rules.accelerate, ship, InputCommands(keys));
      && ((exists k :: 0 <= k < |rocks| && rules.shipHit(steered, rocks[k])) ==>
          r.ship == rules.updateShip(steered, Some(Zero)))
      && ((forall k :: 0 <= k < |rocks| ==> !rules.shipHit(steered, rocks[k])) ==>
          r.ship == rules.updateShip(steered, shipCollision))
  {
    var steered := ApplyKeys(rules.accelerate, ship, keys);
    var pending := RecordRockCollisions(rules.rockHit, rules.velocity, rocks, collisions, order);
    var shipPending := RecordShipCollision((rock: R) => rules.shipHit(steered, rock), rocks, shipCollision);
    var updated := seq(|rocks|, k requires 0 <= k < |rocks| => rules.updateRock(rocks[k], pending[k]));
    Outcome(updated, rules.updateShip(steered, shipPending))
  }
}

=== FILE: gun.dfy ===
/**
 * The ship's gun: firing costs energy and starts a cooldown of `period` frames
 * (src/ship/gun.rs).
 */
module Gun {
  import opened Options
  import opened Vector
  import opened RealMath
  import Bullets
  import Ships

  datatype ShipGun = ShipGun(
    bulletSpeed: real,
    bulletDuration: nat,
    energyCost: real,
    period: nat,
    periodCountdown: nat)

  /** The size every bullet of this gun has. */
  const BulletSize: Vec2 := Vec2(0.0750, 0.0125)

  /** The builder: the configured numbers, and no cooldown running. */
  function Build(bulletSpeed: real, bulletDuration: nat, energyCost: real, period: nat): (g: ShipGun)
    ensures g.periodCountdown == 0
    ensures g.bulletSpeed == bulletSpeed && g.bulletDuration == bulletDuration
    ensures g.energyCost == energyCost && g.period == period
  {
    ShipGun(bulletSpeed, bulletDuration, energyCost, period, 0)
  }

  datatype Fired = Fired(gun: ShipGun, energy: real, bullet: Option<Bullets.BulletDescriptor>)

  /**
   * `fire`: with more energy than a shot costs and no cooldown running, pays the cost,
   * starts the cooldown and returns a bullet living `bullet_duration` frames; otherwise
   * returns nothing and changes nothing.
   */
  function Fire(t: Trig, g: ShipGun, energy: real, ship: Ships.ShipPose): (r: Fired)
    ensures r.bullet.Some? <==> energy > g.energyCost && g.periodCountdown == 0
    ensures r.bullet.Some? ==>
      && r.energy == energy - g.energyCost
      && r.energy > 0.0
      && r.gun == g.(periodCountdown := g.period)
      && r.bullet.value.countdown == g.bulletDuration
      && r.bullet.value.size == BulletSize
      && r.bullet.value.velocity == Scale(Ships.Direction(t, ship.yaw), g.bulletSpeed)
      && Sub(r.bullet.value.position, ship.position) == Mul(Ships.Direction(t, ship.yaw), ship.size)
    ensures r.bullet.None? ==> r.gun == g && r.energy == energy
  {
    if energy > g.energyCost && g.periodCountdown == 0 then
      var bullet := Ships.Shoot(t, ship, g.bulletSpeed, BulletSize, g.bulletDuration);
      Fired(g.(periodCountdown := g.period), energy - g.energyCost, Some(bullet))
    else
      Fired(g, energy, None)
  }

  /** `update`: one frame of cooldown passes; the countdown stops at zero. */
  function Update(g: ShipGun): (r: ShipGun)
    ensures r == g.(periodCountdown := r.periodCountdown)
    ensures g.periodCountdown > 0 ==> r.periodCountdown == g.periodCountdown - 1
    ensures g.periodCountdown == 0 ==> r.periodCountdown == 0
  {
    if g.periodCountdown > 0 then g.(periodCountdown := g.periodCountdown - 1) else g
  }

  datatype Trigger = Trigger(gun: ShipGun, energy: real, shots: nat)

  /**
   * The trigger held down for `frames` frames: each frame the cooldown advances one
   * step and then the gun tries to fire.
   */
  function HoldTrigger(t: Trig, g: ShipGun, energy: real, ship: Ships.ShipPose, frames: nat): Trigger
    decreases frames
  {
    if frames == 0 then Trigger(g, energy, 0)
    else
      var f := Fire(t, Update(g), energy, ship);
      var rest := HoldTrigger(t, f.gun, f.energy, ship, frames - 1);
      rest.(shots := rest.shots + (if f.bullet.Some? then 1 else 0))
  }

  /**
   * While a cooldown of `c` frames is running, holding the trigger for fewer than `c`
   * frames fires nothing, spends nothing and leaves `c - frames` frames of cooldown.
   */
  lemma {:induction false} CooldownBlocksFiring(t: Trig, g: ShipGun, energy: real, ship: Ships.ShipPose, frames: nat)
    requires frames < g.periodCountdown
    ensures HoldTrigger(t, g, energy, ship, frames)
         == Trigger(g.(periodCountdown := g.periodCountdown - frames), energy, 0)
    decreases frames
  {
    if frames > 0 {
      var g' := Update(g);
      assert Fire(t, g', energy, ship) == Fired(g', energy, None);
      CooldownBlocksFiring(t, g', energy, ship, frames - 1);
    }
  }

  /**
   * After a successful shot with `period = p`, the next `p - 1` frames of holding the
   * trigger (update, then fire) produce no bullet.
   */
  lemma NoShotDuringPeriod(t: Trig, g: ShipGun, energy: real, ship: Ships.ShipPose, frames: nat)
    requires Fire(t, g, energy, ship).bullet.Some?
    requires frames < g.period
    ensures var f := Fire(t, g, energy, ship);
      HoldTrigger(t, f.gun, f.energy, ship, frames).shots == 0
  {
    var f := Fire(t, g, energy, ship);
    CooldownBlocksFiring(t, f.gun, f.energy, ship, frames);
  }
}

=== FILE: legacy_controller.dfy ===
/**
 * The earlier ship controller (src/ship_controller.rs), which keeps the gun cooldown
 * and a separate boost energy store itself instead of delegating to a gun and a boost.
 */
module LegacyController {
  import opened Options
  import opened Vector
  import opened RealMath
  import Bullets
  import Ships

  datatype ShipController = ShipController(
    forwardAcceleration: real,
    backwardAcceleration: real,
    yawAcceleration: real,
    fireCountdownDuration: nat,
    bulletSpeed: real,
    bulletDuration: nat,
    boostMultiplier: real,
    boostMaxEnergy: real,
    boostCost: real,
    boostRegeneracy: real,
    fireCountdown: nat,
    boostEnergy: real,
    boostEnabled: bool)

  /** The size of this controller's bullets; thinner than the later gun's. */
  const BulletSize: Vec2 := Vec2(0.0750, 0.0075)

  /** The builder: the configured numbers, no cooldown, an empty boost store, boost off. */
  function Build(
    forwardAcceleration: real, backwardAcceleration: real, yawAcceleration: real,
    fireCountdownDuration: nat, bulletSpeed: real, bulletDuration: nat,
    boostMultiplier: real, boostMaxEnergy: real, boostCost: real, boostRegeneracy: real): (c: ShipController)
    ensures c.fireCountdown == 0 && c.boostEnergy == 0.0 && !c.boostEnabled
    ensures c.forwardAcceleration == forwardAcceleration && c.backwardAcceleration == backwardAcceleration
    ensures c.yawAcceleration == yawAcceleration && c.fireCountdownDuration == fireCountdownDuration
    ensures c.bulletSpeed == bulletSpeed && c.bulletDuration == bulletDuration
    ensures c.boostMultiplier == boostMultiplier && c.boostMaxEnergy == boostMaxEnergy
    ensures c.boostCost == boostCost && c.boostRegeneracy == boostRegeneracy
  {
    ShipController(forwardAcceleration, backwardAcceleration, yawAcceleration,
                   fireCountdownDuration, bulletSpeed, bulletDuration,
                   boostMultiplier, boostMaxEnergy, boostCost, boostRegeneracy,
                   0, 0.0, false)
  }

  /** `boost_multiplier`: the configured multiplier while the boost is on, nothing otherwise. */
  function ThrustMultiplier(c: ShipController): (m: Option<real>)
    ensures m.Some? <==> c.boostEnabled
    ensures m.Some? ==> m.value == c.boostMultiplier
  {
    if c.boostEnabled then Some(c.boostMultiplier) else None
  }

  /** `thrust_forward`: the forward acceleration, scaled by the multiplier while boosting. */
  function ThrustForward(c: ShipController, ship: Option<Ships.ShipPose>): (cmd: Option<Ships.Command>)
    ensures cmd.Some? <==> ship.Some?
    ensures cmd.Some? && c.boostEnabled ==>
      cmd.value == Ships.AccelerateForward(c.forwardAcceleration * c.boostMultiplier)
    ensures cmd.Some? && !c.boostEnabled ==> cmd.value == Ships.AccelerateForward(c.forwardAcceleration)
  {
    if ship.Some? then
      var amount := c.forwardAcceleration * ThrustMultiplier(c).UnwrapOr(1.0);
      assert c.boostEnabled ==> amount == c.forwardAcceleration * c.boostMultiplier;
      assert !c.boostEnabled ==> amount == c.forwardAcceleration;
      Some(Ships.AccelerateForward(amount))
    else None
  }

  /** `thrust_backwards`: the backward acceleration negated, scaled while boosting. */
  function ThrustBackwards(c: ShipController, ship: Option<Ships.ShipPose>): (cmd: Option<Ships.Command>)
    ensures cmd.Some? <==> ship.Some?
    ensures cmd.Some? && c.boostEnabled ==>
      cmd.value == Ships.AccelerateForward(-c.backwardAcceleration * c.boostMultiplier)
    ensures cmd.Some? && !c.boostEnabled ==> cmd.value == Ships.AccelerateForward(-c.backwardAcceleration)
  {
    if ship.Some? then
      var amount := -c.backwardAcceleration * ThrustMultiplier(c).UnwrapOr(1.0);
      assert c.boostEnabled ==> amount == -c.backwardAcceleration * c.boostMultiplier;
      assert !c.boostEnabled ==> amount == -c.backwardAcceleration;
      Some(Ships.AccelerateForward(amount))
    else None
  }

  /** `steer_counter_clockwise`: the yaw acceleration, never boosted. */
  function SteerCounterClockwise(c: ShipController, ship: Option<Ships.ShipPose>): (cmd: Option<Ships.Command>)
    ensures cmd.Some? <==> ship.Some?
    ensures cmd.Some? ==> cmd.value == Ships.AccelerateYaw(c.yawAcceleration)
  {
    if ship.Some? then Some(Ships.AccelerateYaw(c.yawAcceleration)) else None
  }

  /** `steer_clockwise`: the yaw acceleration negated, never boosted. */
  function SteerClockwise(c: ShipController, ship: Option<Ships.ShipPose>): (cmd: Option<Ships.Command>)
    ensures cmd.Some? <==> ship.Some?
    ensures cmd.Some? ==> cmd.value == Ships.AccelerateYaw(-c.yawAcceleration)
  {
    if ship.Some? then Some(Ships.AccelerateYaw(-c.yawAcceleration)) else None
  }

  datatype Shot = Shot(controller: ShipController, bullet: Option<Bullets.BulletDescriptor>)

  /**
   * `fire_bullet`: with no cooldown running and the ship still there, restarts the
   * cooldown and returns a bullet from the ship's nose. A running cooldown, or a ship
   * that is gone (checked before the cooldown restarts), gives nothing and changes nothing.
   * Firing costs no energy.
   */
  function FireBullet(t: Trig, c: ShipController, ship: Option<Ships.ShipPose>): (r: Shot)
    ensures r.bullet.Some? <==> c.fireCountdown == 0 && ship.Some?
    ensures r.bullet.Some? ==>
      && r.controller == c.(fireCountdown := c.fireCountdownDuration)
      && r.bullet.value.countdown == c.bulletDuration
      && r.bullet.value.size == BulletSize
      && r.bullet.value.velocity == Scale(Ships.Direction(t, ship.value.yaw), c.bulletSpeed)
      && Sub(r.bullet.value.position, ship.value.position)
         == Mul(Ships.Direction(t, ship.value.yaw), ship.value.size)
    ensures r.bullet.None? ==> r.controller == c
  {
    if c.fireCountdown == 0 then
      match ship
      case None => Shot(c, None)
      case Some(pose) =>
        Shot(c.(fireCountdown := c.fireCountdownDuration),
             Some(Ships.Shoot(t, pose, c.bulletSpeed, BulletSize, c.bulletDuration)))
    else
      Shot(c, None)
  }

  /** `f32::max` on ordinary numbers: the larger operand. */
  function Max(a: real, b: real): (r: real)
    ensures r >= a && r >= b
    ensures r == a || r == b
  {
    if a >= b then a else b
  }

  /**
   * `set_boost`: pressing pays one frame's cost, clamped at an empty store, and the boost
   * is on exactly when energy is left; releasing turns the boost off and keeps the energy.
   */
  function SetBoost(c: ShipController, state: bool): (r: ShipController)
    ensures state && c.boostEnergy - c.boostCost >= 0.0 ==> r.boostEnergy == c.boostEnergy - c.boostCost
    ensures state && c.boostEnergy - c.boostCost < 0.0 ==> r.boostEnergy == 0.0
    ensures state ==> (r.boostEnabled <==> r.boostEnergy > 0.0)
    ensures !state ==> !r.boostEnabled && r.boostEnergy == c.boostEnergy
    ensures r.boostEnergy >= 0.0 || !state
    ensures r == c.(boostEnergy := r.boostEnergy, boostEnabled := r.boostEnabled)
  {
    if state then
      var energy := Max(c.boostEnergy - c.boostCost, 0.0);
      c.(boostEnergy := energy, boostEnabled := energy > 0.0)
    else
      c.(boostEnabled := false)
  }

  /**
   * `update`: one frame of cooldown passes, stopping at zero; the boost store refills
   * by one step while the boost is off and the store is below its maximum. The step is
   * not capped, so the store can overshoot the maximum by less than one step.
   */
  function Update(c: ShipController): (r: ShipController)
    ensures c.fireCountdown > 0 ==> r.fireCountdown == c.fireCountdown - 1
    ensures c.fireCountdown == 0 ==> r.fireCountdown == 0
    ensures !c.boostEnabled && c.boostEnergy < c.boostMaxEnergy ==>
      r.boostEnergy == c.boostEnergy + c.boostRegeneracy
    ensures c.boostEnabled || c.boostEnergy >= c.boostMaxEnergy ==> r.boostEnergy == c.boostEnergy
    ensures r == c.(fireCountdown := r.fireCountdown, boostEnergy := r.boostEnergy)
  {
    var countdown := if c.fireCountdown > 0 then c.fireCountdown - 1 else 0;
    var energy := if !c.boostEnabled && c.boostEnergy < c.boostMaxEnergy then c.boostEnergy + c.boostRegeneracy
                  else c.boostEnergy;
    c.(fireCountdown := countdown, boostEnergy := energy)
  }

  /** The operations a frame can apply to the controller. */
  datatype Op = Fire(ship: Option<Ships.ShipPose>) | SetBoostTo(state: bool) | Tick

  function Apply(t: Trig, c: ShipController, op: Op): ShipController {
    match op
    case Fire(ship) => FireBullet(t, c, ship).controller
    case SetBoostTo(state) => SetBoost(c, state)
    case Tick => Update(c)
  }

  function Run(t: Trig, c: ShipController, ops: seq<Op>): ShipController
    decreases |ops|
  {
    if |ops| == 0 then c else Run(t, Apply(t, c, ops[0]), ops[1..])
  }

  /**
   * The boost store stays in `[0, max + regeneracy)`: refilling only starts below the
   * maximum, and pressing never takes it below zero.
   */
  predicate EnergyInvariant(c: ShipController) {
    && 0.0 <= c.boostEnergy < c.boostMaxEnergy + c.boostRegeneracy
    && c.boostRegeneracy > 0.0
    && c.boostCost >= 0.0
  }

  /** Whatever the player does, the boost store stays within the invariant's bounds. */
  lemma {:induction false} EnergyStaysInRange(t: Trig, c: ShipController, ops: seq<Op>)
    requires EnergyInvariant(c)
    ensures EnergyInvariant(Run(t, c, ops))
    ensures Run(t, c, ops).boostMaxEnergy == c.boostMaxEnergy
    decreases |ops|
  {
    if |ops| > 0 {
      var c' := Apply(t, c, ops[0]);
      assert EnergyInvariant(c') && c'.boostMaxEnergy == c.boostMaxEnergy;
      EnergyStaysInRange(t, c', ops[1..]);
    }
  }

  /** A freshly built controller satisfies the invariant when its configuration is sane. */
  lemma BuiltControllerIsInRange(
    forwardAcceleration: real, backwardAcceleration: real, yawAcceleration: real,
    fireCountdownDuration: nat, bulletSpeed: real, bulletDuration: nat,
    boostMultiplier: real, boostMaxEnergy: real, boostCost: real, boostRegeneracy: real)
    requires boostMaxEnergy >= 0.0 && boostRegeneracy > 0.0 && boostCost >= 0.0
    ensures EnergyInvariant(Build(forwardAcceleration, backwardAcceleration, yawAcceleration,
                                  fireCountdownDuration, bulletSpeed, bulletDuration,
                                  boostMultiplier, boostMaxEnergy, boostCost, boostRegeneracy))
  {
  }

  /**
   * Pressing boost with a store of at most one frame's cost empties it and leaves the
   * boost off, so the thrust is not multiplied.
   */
  lemma PressingWithLittleEnergyDoesNotBoost(c: ShipController, ship: Ships.ShipPose)
    requires c.boostEnergy <= c.boostCost
    ensures SetBoost(c, true).boostEnergy == 0.0
    ensures ThrustForward(SetBoost(c, true), Some(ship)) == Some(Ships.AccelerateForward(c.forwardAcceleration))
  {
  }

  /** After a shot, the cooldown blocks firing until `duration` updates have passed. */
  lemma {:induction false} CooldownBlocksFiring(t: Trig, c: ShipController, ship: Option<Ships.ShipPose>, k: nat)
    requires c.fireCountdown > k
    ensures FireBullet(t, Ticks(c, k), ship).bullet.None?
    ensures Ticks(c, k).fireCountdown == c.fireCountdown - k
    decreases k
  {
    if k > 0 {
      CooldownBlocksFiring(t, Update(c), ship, k - 1);
      TicksUnfold(c, k);
    }
  }

  /** `k` frames of `update` with nothing else happening. */
  function Ticks(c: ShipController, k: nat): ShipController
    decreases k
  {
    if k == 0 then c else Ticks(Update(c), k - 1)
  }

  lemma TicksUnfold(c: ShipController, k: nat)
    requires k > 0
    ensures Ticks(c, k) == Ticks(Update(c), k - 1)
  {
  }
}

=== FILE: matrix.dfy ===
/**
 * 4×4 matrices in the game's layout: an array of four rows, applied to row vectors, so
 * a translation sits in the last row (src/matrix/matrix.rs, `Matrix4x4` and `Id`).
 */
module Matrices {

  datatype Vec4 = Vec4(x: real, y: real, z: real, w: real)

  datatype Matrix = Matrix(r0: Vec4, r1: Vec4, r2: Vec4, r3: Vec4)

  /** `Id`: the identity matrix. */
  const Identity: Matrix :=
    Matrix(Vec4(1.0, 0.0, 0.0, 0.0),
           Vec4(0.0, 1.0, 0.0, 0.0),
           Vec4(0.0, 0.0, 1.0, 0.0),
           Vec4(0.0, 0.0, 0.0, 1.0))

  /** `v · m` for a row vector `v`: the combination of `m`'s rows weighted by `v`. */
  function Apply(v: Vec4, m: Matrix): Vec4 {
    Vec4(v.x * m.r0.x + v.y * m.r1.x + v.z * m.r2.x + v.w * m.r3.x,
         v.x * m.r0.y + v.y * m.r1.y + v.z * m.r2.y + v.w * m.r3.y,
         v.x * m.r0.z + v.y * m.r1.z + v.z * m.r2.z + v.w * m.r3.z,
         v.x * m.r0.w + v.y * m.r1.w + v.z * m.r2.w + v.w * m.r3.w)
  }

  /** `a · b`, as `ndarray`'s `dot` computes it: each row of `a` applied to `b`. */
  function Multiply(a: Matrix, b: Matrix): Matrix {
    Matrix(Apply(a.r0, b), Apply(a.r1, b), Apply(a.r2, b), Apply(a.r3, b))
  }

  /** The identity leaves every vector where it is. */
  lemma ApplyIdentity(v: Vec4)
    ensures Apply(v, Identity) == v
  {
  }

  /** A point (w = 1) in the plane z = 0. */
  function Point(x: real, y: real): Vec4 {
    Vec4(x, y, 0.0, 1.0)
  }
}

/**
 * The orthographic projection (src/matrix/orthographic.rs): maps the rectangle spanned
 * by two ranges onto the square [-1, 1]².
 */
module Orthographic {
  import opened Options
  import opened Matrices

  /** A half-open `start..end` range of `f32`. */
  datatype Range = Range(start: real, end: real)

  datatype Projection = Projection(abscissa: Range, ordinate: Range)

  /** The builder, whose fields may be unset. */
  datatype Builder = Builder(abscissa: Option<Range>, ordinate: Option<Range>)

  /** `OrthographicProjection::default()`: a builder with nothing set. */
  const Default: Builder := Builder(None, None)

  const UnitRange: Range := Range(-1.0, 1.0)

  /** `build`: each range that was not set becomes `-1..1`. */
  function Build(b: Builder): (p: Projection)
    ensures b.abscissa.Some? ==> p.abscissa == b.abscissa.value
    ensures b.abscissa.None? ==> p.abscissa == UnitRange
    ensures b.ordinate.Some? ==> p.ordinate == b.ordinate.value
    ensures b.ordinate.None? ==> p.ordinate == UnitRange
  {
    Projection(b.abscissa.UnwrapOr(UnitRange), b.ordinate.UnwrapOr(UnitRange))
  }

  predicate Degenerate(r: Range) {
    r.end == r.start
  }

  /** The matrix entries of one axis: its scale and its offset. */
  function AxisScale(r: Range): real
    requires !Degenerate(r)
  {
    2.0 / (r.end - r.start)
  }

  function AxisOffset(r: Range): real
    requires !Degenerate(r)
  {
    -(r.end + r.start) / (r.end - r.start)
  }

  /**
   * `into_matrix`: scales each axis by `2 / (max - min)` and shifts it by
   * `-(max + min) / (max - min)`, leaving z and w alone. An empty range divides by zero,
   * which in `f32` gives a matrix of infinities and NaNs; here that is `None`.
   */
  function IntoMatrix(p: Projection): (m: Option<Matrix>)
    ensures m.Some? <==> !Degenerate(p.abscissa) && !Degenerate(p.ordinate)
    ensures m.Some? ==> m.value.r2 == Identity.r2
    ensures m.Some? ==> m.value.r0.y == 0.0 && m.value.r0.z == 0.0 && m.value.r0.w == 0.0
    ensures m.Some? ==> m.value.r1.x == 0.0 && m.value.r1.z == 0.0 && m.value.r1.w == 0.0
    ensures m.Some? ==> m.value.r3.z == 0.0 && m.value.r3.w == 1.0
    ensures m.Some? ==> m.value.r0.x == AxisScale(p.abscissa) && m.value.r3.x == AxisOffset(p.abscissa)
    ensures m.Some? ==> m.value.r1.y == AxisScale(p.ordinate) && m.value.r3.y == AxisOffset(p.ordinate)
  {
    if Degenerate(p.abscissa) || Degenerate(p.ordinate) then None
    else
      var x := p.abscissa;
      var y := p.ordinate;
      Some(Matrix(Vec4(AxisScale(x), 0.0, 0.0, 0.0),
                  Vec4(0.0, AxisScale(y), 0.0, 0.0),
                  Vec4(0.0, 0.0, 1.0, 0.0),
                  Vec4(AxisOffset(x), AxisOffset(y), 0.0, 1.0)))
  }

  /** The builder's `into_matrix`: build first, then take the projection's matrix. */
  function BuilderIntoMatrix(b: Builder): (m: Option<Matrix>)
    ensures b == Default ==> m == Some(Identity)
    ensures b.abscissa.None? && b.ordinate.None? ==> m.Some?
    ensures m.Some? <==>
      (b.abscissa.None? || !Degenerate(b.abscissa.value)) && (b.ordinate.None? || !Degenerate(b.ordinate.value))
    ensures m == IntoMatrix(Build(b))
    ensures b.abscissa.Some? && m.Some? ==>
      m.value.r0.x == AxisScale(b.abscissa.value) && m.value.r3.x == AxisOffset(b.abscissa.value)
    ensures b.ordinate.Some? && m.Some? ==>
      m.value.r1.y == AxisScale(b.ordinate.value) && m.value.r3.y == AxisOffset(b.ordinate.value)
    ensures b.abscissa.None? && m.Some? ==> m.value.r0.x == 1.0 && m.value.r3.x == 0.0
    ensures b.ordinate.None? && m.Some? ==> m.value.r1.y == 1.0 && m.value.r3.y == 0.0
  {
    IntoMatrix(Build(b))
  }

  /** With both ranges at their default the projection changes nothing. */
  lemma DefaultIsIdentity()
    ensures IntoMatrix(Build(Default)) == Some(Identity)
  {
  }

  /** Where the shared denominator of one axis's two entries cancels. */
  lemma AxisEnds(r: Range)
    requires !Degenerate(r)
    ensures r.start * AxisScale(r) + AxisOffset(r) == -1.0
    ensures r.end * AxisScale(r) + AxisOffset(r) == 1.0
  {
    var d := r.end - r.start;
    assert r.start * (2.0 / d) == 2.0 * r.start / d;
    assert r.end * (2.0 / d) == 2.0 * r.end / d;
    assert 2.0 * r.start / d + -(r.end + r.start) / d == (r.start - r.end) / d;
    assert 2.0 * r.end / d + -(r.end + r.start) / d == (r.end - r.start) / d;
  }

  /**
   * The corner `(min, min)` of the ranges lands on `(-1, -1)` and the corner `(max, max)`
   * on `(1, 1)`; the depth of the point passes through unchanged.
   */
  lemma MapsRangeEnds(p: Projection, z: real)
    requires !Degenerate(p.abscissa) && !Degenerate(p.ordinate)
    ensures Apply(Vec4(p.abscissa.start, p.ordinate.start, z, 1.0), IntoMatrix(p).value) == Vec4(-1.0, -1.0, z, 1.0)
    ensures Apply(Vec4(p.abscissa.end, p.ordinate.end, z, 1.0), IntoMatrix(p).value) == Vec4(1.0, 1.0, z, 1.0)
  {
    AxisEnds(p.abscissa);
    AxisEnds(p.ordinate);
  }

  /** The z coordinate and w of any vector are left as they are. */
  lemma KeepsDepth(p: Projection, v: Vec4)
    requires !Degenerate(p.abscissa) && !Degenerate(p.ordinate)
    ensures Apply(v, IntoMatrix(p).value).z == v.z
    ensures Apply(v, IntoMatrix(p).value).w == v.w
  {
  }
}

/**
 * The scale, translate and rotate builders (src/matrix/transform.rs). Each field left
 * unset takes the value that makes the matrix the identity along that axis.
 */
module Transform {
  import opened Options
  import opened Vector
  import opened RealMath
  import opened Matrices

  datatype Triple = Triple(x: real, y: real, z: real)

  /** `unwrap3_or`: each missing component, independently, becomes `value`. */
  function Unwrap3Or(x: Option<real>, y: Option<real>, z: Option<real>, value: real): (r: Triple)
    ensures x.Some? ==> r.x == x.value
    ensures x.None? ==> r.x == value
    ensures y.Some? ==> r.y == y.value
    ensures y.None? ==> r.y == value
    ensures z.Some? ==> r.z == z.value
    ensures z.None? ==> r.z == value
  {
    Triple(x.UnwrapOr(value), y.UnwrapOr(value), z.UnwrapOr(value))
  }

  /** The fields of a `ScaleBuilder` or `TranslateBuilder`. */
  datatype Axes = Axes(x: Option<real>, y: Option<real>, z: Option<real>)

  /** `Scale::id()` and `Translate::id()`: a builder with nothing set. */
  const Unset: Axes := Axes(None, None, None)

  /** The `vec2` setter: x and y from the vector; z as it was. */
  function WithVec2(b: Axes, v: Vec2): (r: Axes)
    ensures r.x == Some(v.x) && r.y == Some(v.y)
    ensures r.z == b.z
  {
    b.(x := Some(v.x), y := Some(v.y))
  }

  /** The scale matrix: the factors on the diagonal, unset ones 1. */
  function ScaleMatrix(b: Axes): (m: Matrix)
    ensures b == Unset ==> m == Identity
    ensures var f := Unwrap3Or(b.x, b.y, b.z, 1.0);
      m == Matrix(Vec4(f.x, 0.0, 0.0, 0.0), Vec4(0.0, f.y, 0.0, 0.0), Vec4(0.0, 0.0, f.z, 0.0), Identity.r3)
  {
    var f := Unwrap3Or(b.x, b.y, b.z, 1.0);
    Matrix(Vec4(f.x, 0.0, 0.0, 0.0),
           Vec4(0.0, f.y, 0.0, 0.0),
           Vec4(0.0, 0.0, f.z, 0.0),
           Vec4(0.0, 0.0, 0.0, 1.0))
  }

  /** The scale by a 2D vector, as the `vec2` setter builds it: z keeps the factor 1. */
  lemma ScaleByVec2(v: Vec2)
    ensures ScaleMatrix(WithVec2(Unset, v))
         == Matrix(Vec4(v.x, 0.0, 0.0, 0.0), Vec4(0.0, v.y, 0.0, 0.0), Identity.r2, Identity.r3)
  {
    var f := Unwrap3Or(Some(v.x), Some(v.y), None, 1.0);
    assert f == Triple(v.x, v.y, 1.0);
  }

  /** Scaling multiplies each coordinate of a point by its factor; unset axes stay. */
  lemma ScaleActs(b: Axes, v: Vec4)
    requires v.w == 1.0
    ensures var f := Unwrap3Or(b.x, b.y, b.z, 1.0);
      Apply(v, ScaleMatrix(b)) == Vec4(v.x * f.x, v.y * f.y, v.z * f.z, 1.0)
  {
  }

  /** The translation matrix: the offsets in the last row, unset ones 0. */
  function TranslateMatrix(b: Axes): (m: Matrix)
    ensures b == Unset ==> m == Identity
    ensures var o := Unwrap3Or(b.x, b.y, b.z, 0.0);
      m == Matrix(Identity.r0, Identity.r1, Identity.r2, Vec4(o.x, o.y, o.z, 1.0))
  {
    var o := Unwrap3Or(b.x, b.y, b.z, 0.0);
    Matrix(Vec4(1.0, 0.0, 0.0, 0.0),
           Vec4(0.0, 1.0, 0.0, 0.0),
           Vec4(0.0, 0.0, 1.0, 0.0),
           Vec4(o.x, o.y, o.z, 1.0))
  }

  /** Translating moves a point by the offsets and leaves a direction (w = 0) alone. */
  lemma TranslateActs(b: Axes, v: Vec4)
    ensures var o := Unwrap3Or(b.x, b.y, b.z, 0.0);
      v.w == 1.0 ==> Apply(v, TranslateMatrix(b)) == Vec4(v.x + o.x, v.y + o.y, v.z + o.z, 1.0)
    ensures v.w == 0.0 ==> Apply(v, TranslateMatrix(b)) == v
  {
  }

  /** The translation by a 2D vector, as the `vec2` setter builds it. */
  lemma TranslationByVec2(v: Vec2)
    ensures TranslateMatrix(WithVec2(Unset, v)) == Matrix(Identity.r0, Identity.r1, Identity.r2, Vec4(v.x, v.y, 0.0, 1.0))
  {
    var o := Unwrap3Or(Some(v.x), Some(v.y), None, 0.0);
    assert o == Triple(v.x, v.y, 0.0);
  }

  /** Two translations in a row are one translation by the summed offsets. */
  lemma TranslationsCompose(a: Vec2, b: Vec2)
    ensures Multiply(TranslateMatrix(WithVec2(Unset, a)), TranslateMatrix(WithVec2(Unset, b)))
         == TranslateMatrix(WithVec2(Unset, Add(a, b)))
  {
    TranslationByVec2(a);
    TranslationByVec2(b);
    TranslationByVec2(Add(a, b));
    var tb := Matrix(Identity.r0, Identity.r1, Identity.r2, Vec4(b.x, b.y, 0.0, 1.0));
    assert Apply(Identity.r0, tb) == Identity.r0;
    assert Apply(Identity.r1, tb) == Identity.r1;
    assert Apply(Identity.r2, tb) == Identity.r2;
    assert Apply(Vec4(a.x, a.y, 0.0, 1.0), tb) == Vec4(a.x + b.x, a.y + b.y, 0.0, 1.0);
  }

  /** The rotation matrix: `[[c, s], [-s, c]]` in the top-left corner; no angle, no rotation. */
  function RotateMatrix(t: Trig, radians: Option<real>): (m: Matrix)
    ensures radians.None? ==> m == Identity
    ensures radians.Some? ==>
      var c := t.cos(radians.value);
      var s := t.sin(radians.value);
      m == Matrix(Vec4(c, s, 0.0, 0.0), Vec4(-s, c, 0.0, 0.0), Identity.r2, Identity.r3)
  {
    match radians
    case Some(a) =>
      var c := t.cos(a);
      var s := t.sin(a);
      Matrix(Vec4(c, s, 0.0, 0.0),
             Vec4(-s, c, 0.0, 0.0),
             Vec4(0.0, 0.0, 1.0, 0.0),
             Vec4(0.0, 0.0, 0.0, 1.0))
    case None => Identity
  }

  /** `(x c - y s)² + (x s + y c)² = (x² + y²)(c² + s²)`. */
  lemma RotationAlgebra(x: real, y: real, c: real, s: real)
    ensures Square(x * c - y * s) + Square(x * s + y * c) == (Square(x) + Square(y)) * (Square(c) + Square(s))
  {
    calc {
      Square(x * c - y * s) + Square(x * s + y * c);
      (x * c) * (x * c) - 2.0 * (x * c) * (y * s) + (y * s) * (y * s)
        + (x * s) * (x * s) + 2.0 * (x * s) * (y * c) + (y * c) * (y * c);
      { assert (x * c) * (y * s) == (x * s) * (y * c); }
      (x * c) * (x * c) + (y * s) * (y * s) + (x * s) * (x * s) + (y * c) * (y * c);
      { assert (x * c) * (x * c) + (x * s) * (x * s) == (x * x) * (c * c + s * s);
        assert (y * s) * (y * s) + (y * c) * (y * c) == (y * y) * (c * c + s * s); }
      (Square(x) + Square(y)) * (Square(c) + Square(s));
    }
  }

  /** On the unit circle, a rotation keeps every point at the same distance from the origin. */
  lemma RotationPreservesLength(t: Trig, radians: real, v: Vec4)
    requires Pythagorean(t)
    ensures var r := Apply(v, RotateMatrix(t, Some(radians)));
      Square(r.x) + Square(r.y) == Square(v.x) + Square(v.y) && r.z == v.z && r.w == v.w
  {
    var c := t.cos(radians);
    var s := t.sin(radians);
    var r := Apply(v, RotateMatrix(t, Some(radians)));
    assert r.x == v.x * c - v.y * s;
    assert r.y == v.x * s + v.y * c;
    RotationAlgebra(v.x, v.y, c, s);
    assert Square(c) + Square(s) == 1.0;
  }

  /** Rotating by zero radians is the identity, like not rotating at all. */
  lemma RotateByZero(t: Trig)
    requires AtZero(t)
    ensures RotateMatrix(t, Some(0.0)) == RotateMatrix(t, None)
  {
  }
}

=== FILE: rock.dfy ===
/**
 * A rock: a regular polygon drifting over the torus, with an inbox of the collisions
 * found for it during the current frame (src/rock/rock.rs).
 */
module Rocks {
  import opened Options
  import opened Vector
  import opened RealMath
  import opened Collisions
  import Foreground
  import Shape

  /**
   * A collision as this revision delivers it to a rock: the other body's data, tagged
   * with the kind of body it came from.
   */
  datatype Impact = ByRock(other: Collision) | ByBullet(other: Collision) | ByShip(other: Collision)

  datatype RockDescriptor = RockDescriptor(shape: Shape.RockShape, size: Vec2, position: Vec2, velocity: Vec2)

  /**
   * The inbox is an `Option` because `update` swaps it out with `replace`; every
   * operation leaves it `Some`, so the `unwrap`s on it never fail.
   */
  datatype Rock = Rock(
    shape: Shape.RockShape,
    size: Vec2,
    position: Vec2,
    velocity: Vec2,
    collisions: Option<seq<Impact>>)

  /** `Rock::new`: the descriptor's data and an empty inbox. */
  function New(d: RockDescriptor): (rock: Rock)
    ensures rock.collisions == Some([])
    ensures rock.shape == d.shape && rock.size == d.size
    ensures rock.position == d.position && rock.velocity == d.velocity
  {
    Rock(d.shape, d.size, d.position, d.velocity, Some([]))
  }

  /** `push_collision`: the new collision goes to the end; nothing else changes. */
  function PushCollision(rock: Rock, c: Impact): (r: Rock)
    requires rock.collisions.Some?
    ensures r.collisions.Some?
    ensures |r.collisions.value| == |rock.collisions.value| + 1
    ensures r.collisions.value[..|rock.collisions.value|] == rock.collisions.value
    ensures r.collisions.value[|rock.collisions.value|] == c
    ensures r.(collisions := rock.collisions) == rock
  {
    rock.(collisions := Some(rock.collisions.value + [c]))
  }

  /** The sum of the resolver's velocity deltas for all `impacts`, each against `target`. */
  function TotalDelta(target: Rock, impacts: seq<Impact>, delta: (Rock, Collision) -> Vec2): Vec2 {
    if |impacts| == 0 then Zero
    else Add(delta(target, impacts[0].other), TotalDelta(target, impacts[1..], delta))
  }

  /**
   * The `fold` of `update`: the deltas subtracted one after another, in inbox order.
   * Subtracting them one by one is subtracting their sum.
   */
  function SubtractDeltas(velocity: Vec2, target: Rock, impacts: seq<Impact>, delta: (Rock, Collision) -> Vec2): (v: Vec2)
    ensures v == Sub(velocity, TotalDelta(target, impacts, delta))
    decreases |impacts|
  {
    if |impacts| == 0 then velocity
    else SubtractDeltas(Sub(velocity, delta(target, impacts[0].other)), target, impacts[1..], delta)
  }

  datatype Updated = Updated(rock: Rock, drained: seq<Impact>)

  /**
   * `Rock::update`. The inbox is swapped for an empty one first; the velocity then loses
   * the resolver's delta for every drained collision, and the rock moves by the new
   * velocity and is wrapped. The resolver (`delta`) is not part of this model: it is
   * given the rock as it stands after the swap, so every delta sees the velocity and
   * position from before the update. The drained collisions are handed back in order.
   */
  function Update(rock: Rock, delta: (Rock, Collision) -> Vec2): (u: Updated)
    requires rock.collisions.Some?
    ensures u.drained == rock.collisions.value
    ensures u.rock.collisions == Some([])
    ensures u.rock.velocity
         == Sub(rock.velocity, TotalDelta(rock.(collisions := Some([])), rock.collisions.value, delta))
    ensures u.rock.position == Foreground.PositionModulo(Add(rock.position, u.rock.velocity)).0
    ensures 0.0 <= u.rock.position.x <= Foreground.Width
    ensures u.rock.shape == rock.shape && u.rock.size == rock.size
  {
    var impacts := rock.collisions.value;
    var target := rock.(collisions := Some([]));
    var velocity := SubtractDeltas(rock.velocity, target, impacts, delta);
    var position := Foreground.PositionModulo(Add(rock.position, velocity)).0;
    Updated(target.(velocity := velocity, position := position), impacts)
  }

  /** With an empty inbox a rock just drifts: same velocity, moved and wrapped. */
  lemma UpdateWithoutCollisions(rock: Rock, delta: (Rock, Collision) -> Vec2)
    requires rock.collisions == Some([])
    ensures Update(rock, delta).rock.velocity == rock.velocity
    ensures Update(rock, delta).rock.position == Foreground.PositionModulo(Add(rock.position, rock.velocity)).0
    ensures Update(rock, delta).drained == []
  {
  }

  /** Collisions pushed onto a new rock come back from `update` in the order they were pushed. */
  lemma PushedCollisionsDrainInOrder(d: RockDescriptor, a: Impact, b: Impact, delta: (Rock, Collision) -> Vec2)
    ensures var rock := PushCollision(PushCollision(New(d), a), b);
      Update(rock, delta).drained == [a, b]
      && Update(Update(rock, delta).rock, delta).drained == []
  {
  }

  /** The angle one polygon side spans, `2 * PI / sides`. */
  function SideAngle(sides: nat): real
    requires sides > 0
  {
    2.0 * Pi / (sides as real)
  }

  /** Distance from the centre of a regular polygon to the middle point of its first side. */
  function EdgeMidpointDistance(t: Trig, sides: nat, size: real): real
    requires sides > 0
  {
    var rad := SideAngle(sides);
    var w := 0.5 * (1.0 + t.cos(rad)) * size;
    var h := 0.5 * (0.0 + t.sin(rad)) * size;
    t.sqrt(Square(w) + Square(h))
  }

  /**
   * `Rock::hitbox`: a circle at the rock's centre whose radius reaches the middle of a
   * polygon side, computed from the smaller size component and the shape's side count.
   */
  function Hitbox(t: Trig, rock: Rock): (h: CircularHitbox)
    ensures h.position == rock.position
    ensures h.radius == EdgeMidpointDistance(t, Shape.Sides(rock.shape), Min(rock.size.x, rock.size.y))
  {
    CircularHitbox(rock.position, EdgeMidpointDistance(t, Shape.Sides(rock.shape), Min(rock.size.x, rock.size.y)))
  }

  /**
   * With real trigonometry the hitbox radius is the polygon's apothem:
   * radius^2 = size^2 * (1 + cos(2 PI / n)) / 2, i.e. (size * cos(PI / n))^2.
   */
  lemma HitboxRadiusIsApothem(t: Trig, rock: Rock)
    requires SqrtLaw(t.sqrt) && Pythagorean(t)
    ensures var s := Min(rock.size.x, rock.size.y);
      var c := t.cos(SideAngle(Shape.Sides(rock.shape)));
      Hitbox(t, rock).radius >= 0.0
      && Square(Hitbox(t, rock).radius) == Square(s) * (1.0 + c) / 2.0
  {
    var s := Min(rock.size.x, rock.size.y);
    var rad := SideAngle(Shape.Sides(rock.shape));
    var c := t.cos(rad);
    var sn := t.sin(rad);
    var w := 0.5 * (1.0 + c) * s;
    var h := 0.5 * (0.0 + sn) * s;
    assert sn * sn + c * c == 1.0;
    ApothemAlgebra(s, c, sn);
    assert Square(w) + Square(h) == Square(s) * (1.0 + c) / 2.0;
    assert 0.0 <= Square(w) + Square(h);
  }

  lemma ApothemAlgebra(s: real, c: real, sn: real)
    requires sn * sn + c * c == 1.0
    ensures Square(0.5 * (1.0 + c) * s) + Square(0.5 * (0.0 + sn) * s) == Square(s) * (1.0 + c) / 2.0
  {
    calc {
      Square(0.5 * (1.0 + c) * s) + Square(0.5 * (0.0 + sn) * s);
      0.25 * s * s * ((1.0 + c) * (1.0 + c) + sn * sn);
      0.25 * s * s * (1.0 + 2.0 * c + (c * c + sn * sn));
      0.25 * s * s * (2.0 + 2.0 * c);
      Square(s) * (1.0 + c) / 2.0;
    }
  }

  /** The z component of the cross product of two plane vectors: twice the triangle they span. */
  function Cross(u: Vec2, v: Vec2): real {
    u.x * v.y - u.y * v.x
  }

  /**
   * The fan triangle between the centre and two neighbouring corners of the polygon of
   * circumradius `s`: the corner at angle 0, (s, 0), and the next one, (s cos a, s sin a).
   */
  function FanTriangleArea(t: Trig, s: real, angle: real): real {
    0.5 * Cross(Vec2(s, 0.0), Vec2(s * t.cos(angle), s * t.sin(angle)))
  }

  /**
   * `area`: defined for square sizes only (the source panics on any other, shown here as
   * `None`); then the polygon's area as `sides` fan triangles.
   */
  function Area(t: Trig, rock: Rock): (a: Option<real>)
    ensures a.Some? <==> rock.size.x == rock.size.y
    ensures a.Some? ==>
      a.value == (Shape.Sides(rock.shape) as real) * FanTriangleArea(t, rock.size.x, SideAngle(Shape.Sides(rock.shape)))
  {
    var w := rock.size.x;
    var h := rock.size.y;
    if w == h then
      var sides := Shape.Sides(rock.shape) as real;
      var angle := SideAngle(Shape.Sides(rock.shape));
      Some(Square(w) * t.sin(angle) / 2.0 * sides)
    else
      None
  }

  /** `weight`: four times the area, and like it undefined for non-square sizes. */
  function Weight(t: Trig, rock: Rock): (m: Option<real>)
    ensures m.Some? <==> rock.size.x == rock.size.y
    ensures m.Some? ==> m == Some(4.0 * Area(t, rock).value)
  {
    match Area(t, rock)
    case Some(a) => Some(4.0 * a)
    case None => None
  }
}

=== FILE: rock_renderer.dfy ===
/**
 * The geometry the rock renderer draws (src/rock_renderer.rs): one triangle-fan vertex
 * buffer per rock shape, and a model matrix that scales the unit polygon to the rock's
 * size and moves it to the rock's position. The WebGL calls themselves are not modelled.
 */
module RockRenderer {
  import opened Options
  import opened Vector
  import opened RealMath
  import opened Matrices
  import LegacyShape
  import Transform

  /** `xyz`: three coordinates, in order, as one vertex. */
  function Xyz(x: real, y: real, z: real): (v: seq<real>)
    ensures |v| == 3 && v[0] == x && v[1] == y && v[2] == z
  {
    [x, y, z]
  }

  /** The angle between consecutive vertices of a regular `n`-gon, `2π · (1/n)`. */
  function VertexAngle(n: nat): real
    requires n > 0
  {
    2.0 * Pi * (1.0 / (n as real))
  }

  /** Vertex `k` of a flat buffer of coordinates: its three entries from `3k` on. */
  function Vertex(buffer: seq<real>, k: nat): seq<real>
    requires 3 * k + 3 <= |buffer|
  {
    buffer[3 * k..3 * k + 3]
  }

  /** Corner `k` of the unit polygon with `n` sides. */
  function Corner(t: Trig, n: nat, k: nat): seq<real>
    requires n > 0
  {
    Xyz(t.cos(k as real * VertexAngle(n)), t.sin(k as real * VertexAngle(n)), 0.0)
  }

  /** The first `count` corners of the unit `n`-gon, in order. */
  function Ring(t: Trig, n: nat, count: nat): (v: seq<real>)
    requires n > 0
    ensures |v| == 3 * count
    ensures forall k :: 0 <= k < count ==> Vertex(v, k) == Corner(t, n, k)
    decreases count
  {
    if count == 0 then []
    else
      var prefix := Ring(t, n, count - 1);
      var v := prefix + Corner(t, n, count - 1);
      assert forall k :: 0 <= k < count - 1 ==> Vertex(v, k) == Vertex(prefix, k);
      assert Vertex(v, count - 1) == Corner(t, n, count - 1);
      v
  }

  /**
   * `polygon_vertices`: nothing for fewer than three sides; otherwise the fan's centre, the
   * `n` corners of the unit polygon starting at angle 0, and (1, 0, 0) again to close the
   * fan: `n + 2` vertices of three coordinates each, all in the plane z = 0.
   */
  function PolygonVertices(t: Trig, n: nat): (r: Option<seq<real>>)
    ensures r.Some? <==> n > 2
    ensures r.Some? ==> |r.value| == 3 * (n + 2)
    ensures r.Some? ==> Vertex(r.value, 0) == [0.0, 0.0, 0.0]
    ensures r.Some? ==> forall k :: 1 <= k <= n ==> Vertex(r.value, k) == Corner(t, n, k - 1)
    ensures r.Some? ==> Vertex(r.value, n + 1) == [1.0, 0.0, 0.0]
    ensures r.Some? ==> forall k :: 0 <= k < n + 2 ==> Vertex(r.value, k)[2] == 0.0
  {
    if n <= 2 then None
    else
      var ring := Ring(t, n, n);
      var buffer := Xyz(0.0, 0.0, 0.0) + ring + Xyz(1.0, 0.0, 0.0);
      assert forall k :: 1 <= k <= n ==> Vertex(buffer, k) == Vertex(ring, k - 1);
      Some(buffer)
  }

  /**
   * On the unit circle's angle 0, the closing vertex is the first corner again, so the
   * fan is closed.
   */
  lemma FanIsClosed(t: Trig, n: nat)
    requires AtZero(t) && n > 2
    ensures Vertex(PolygonVertices(t, n).value, n + 1) == Vertex(PolygonVertices(t, n).value, 1)
  {
    assert 0 as real * VertexAngle(n) == 0.0;
  }

  /** The vertex count `draw_arrays` is given for a shape: its sides plus 2. */
  function DrawCount(shape: LegacyShape.RockShape): nat {
    LegacyShape.Sides(shape) + 2
  }

  /**
   * Every shape has more than two sides, so building its buffer never fails (the `unwrap`
   * in the renderer's constructor), and the draw count is exactly the number of vertices
   * in the buffer bound for that shape.
   */
  lemma DrawCountMatchesBuffer(t: Trig, shape: LegacyShape.RockShape)
    ensures PolygonVertices(t, LegacyShape.Sides(shape)).Some?
    ensures |PolygonVertices(t, LegacyShape.Sides(shape)).value| == 3 * DrawCount(shape)
  {
  }

  /** The constructor builds one buffer per shape of the iteration, and none is missing. */
  lemma EveryShapeHasABuffer(t: Trig)
    ensures forall i :: 0 <= i < |LegacyShape.Iter()| ==> PolygonVertices(t, LegacyShape.Sides(LegacyShape.Iter()[i])).Some?
    ensures forall s: LegacyShape.RockShape :: s in LegacyShape.Iter()
  {
  }

  /**
   * The model matrix of a rock: the scale matrix of its size times the translation of its
   * position, written out as the two literal matrices the renderer multiplies.
   */
  function ModelMatrix(size: Vec2, position: Vec2): (m: Matrix)
    ensures m == Multiply(Transform.ScaleMatrix(Transform.WithVec2(Transform.Unset, size)),
                          Transform.TranslateMatrix(Transform.WithVec2(Transform.Unset, position)))
  {
    var scale := Matrix(Vec4(size.x, 0.0, 0.0, 0.0),
                        Vec4(0.0, size.y, 0.0, 0.0),
                        Vec4(0.0, 0.0, 1.0, 0.0),
                        Vec4(0.0, 0.0, 0.0, 1.0));
    var translate := Matrix(Vec4(1.0, 0.0, 0.0, 0.0),
                            Vec4(0.0, 1.0, 0.0, 0.0),
                            Vec4(0.0, 0.0, 1.0, 0.0),
                            Vec4(position.x, position.y, 0.0, 1.0));
    Transform.TranslationByVec2(position);
    Transform.ScaleByVec2(size);
    Multiply(scale, translate)
  }

  /** A vertex of the unit polygon is scaled by the rock's size and then moved to its position. */
  lemma ModelMatrixPlacesVertex(size: Vec2, position: Vec2, x: real, y: real)
    ensures Apply(Point(x, y), ModelMatrix(size, position))
         == Point(x * size.x + position.x, y * size.y + position.y)
  {
  }

  /** The fan's centre lands on the rock's position. */
  lemma CentreLandsOnPosition(size: Vec2, position: Vec2)
    ensures Apply(Point(0.0, 0.0), ModelMatrix(size, position)) == Point(position.x, position.y)
  {
    ModelMatrixPlacesVertex(size, position, 0.0, 0.0);
  }
}

=== FILE: shape.dfy ===
/** The four rock outlines and their side counts (src/rock/shape.rs). */
module Shape {
  import opened Options

  datatype RockShape = Pentagon | Hexagon | Septagon | Octagon

  /** `RockShape::sides`: the number of polygon corners of a shape. */
  function Sides(shape: RockShape): (n: nat)
    ensures 5 <= n <= 8
    ensures shape == Pentagon <==> n == 5
    ensures shape == Hexagon <==> n == 6
    ensures shape == Septagon <==> n == 7
    ensures shape == Octagon <==> n == 8
  {
    match shape
    case Pentagon => 5
    case Hexagon => 6
    case Septagon => 7
    case Octagon => 8
  }

  /** `RockShape::iter`: every shape once, in declaration order. */
  function Iter(): (shapes: seq<RockShape>)
    ensures |shapes| == 4
    ensures forall s: RockShape :: s in shapes
    ensures forall i, j :: 0 <= i < j < |shapes| ==> shapes[i] != shapes[j]
    ensures forall i :: 0 <= i < |shapes| ==> Sides(shapes[i]) == 5 + i
  {
    var shapes := [Pentagon, Hexagon, Septagon, Octagon];
    assert forall s: RockShape :: s in shapes by {
      forall s: RockShape ensures s in shapes {
        assert shapes[Sides(s) - 5] == s;
      }
    }
    shapes
  }

  /** Distinct shapes have distinct side counts, and every shape is a true polygon. */
  lemma SidesInjective(a: RockShape, b: RockShape)
    ensures Sides(a) == Sides(b) ==> a == b
    ensures Sides(a) > 2
  {
  }

  /**
   * `enumerate().find_map(...)` over `shapes`: the shape whose position, counted from
   * `start`, equals `i`, if there is one.
   */
  function FindAt(shapes: seq<RockShape>, start: nat, i: nat): (r: Option<RockShape>)
    ensures r.Some? <==> start <= i < start + |shapes|
    ensures r.Some? ==> r.value == shapes[i - start]
    decreases |shapes|
  {
    if |shapes| == 0 then None
    else if i == start then Some(shapes[0])
    else FindAt(shapes[1..], start + 1, i)
  }

  /**
   * The `Standard` distribution's `sample`, given the index `gen_range(0..4)` drew: the
   * index-th shape of `Iter`. The search always succeeds for such an index, so the
   * `unwrap` cannot fail.
   */
  function Sample(i: nat): (shape: RockShape)
    requires i < 4
    ensures Sides(shape) == 5 + i
  {
    FindAt(Iter(), 0, i).value
  }

  /** The search behind `Sample` finds a shape exactly for the indices `gen_range(0..4)` draws. */
  lemma SampleSearchSucceeds(i: nat)
    ensures FindAt(Iter(), 0, i).Some? <==> i < 4
    ensures i < 4 ==> FindAt(Iter(), 0, i).value == Iter()[i]
  {
  }
}

/**
 * The earlier revision of the rock outlines (src/rock_shape.rs). It declares its own enum
 * with the same variants, side counts and iteration order; only `sample` differs.
 */
module LegacyShape {
  import Shape

  datatype RockShape = Pentagon | Hexagon | Septagon | Octagon

  function Sides(shape: RockShape): (n: nat)
    ensures 5 <= n <= 8
    ensures shape == Pentagon <==> n == 5
    ensures shape == Hexagon <==> n == 6
    ensures shape == Septagon <==> n == 7
    ensures shape == Octagon <==> n == 8
  {
    match shape
    case Pentagon => 5
    case Hexagon => 6
    case Septagon => 7
    case Octagon => 8
  }

  function Iter(): (shapes: seq<RockShape>)
    ensures |shapes| == 4
    ensures forall s: RockShape :: s in shapes
    ensures forall i, j :: 0 <= i < j < |shapes| ==> shapes[i] != shapes[j]
    ensures forall i :: 0 <= i < |shapes| ==> Sides(shapes[i]) == 5 + i
  {
    var shapes := [Pentagon, Hexagon, Septagon, Octagon];
    assert forall s: RockShape :: s in shapes by {
      forall s: RockShape ensures s in shapes {
        assert shapes[Sides(s) - 5] == s;
      }
    }
    shapes
  }

  /** `sample`: 0, 1 and 2 pick the first three shapes; every other index the octagon. */
  function Sample(i: nat): (shape: RockShape)
    ensures i < 4 ==> shape == Iter()[i]
    ensures i >= 3 ==> shape == Octagon
  {
    match i
    case 0 => Pentagon
    case 1 => Hexagon
    case 2 => Septagon
    case _ => Octagon
  }

  /** The same variant in the later revision's enum. */
  function Current(shape: RockShape): Shape.RockShape {
    match shape
    case Pentagon => Shape.Pentagon
    case Hexagon => Shape.Hexagon
    case Septagon => Shape.Septagon
    case Octagon => Shape.Octagon
  }

  /**
   * The two revisions agree: the correspondence keeps side counts, maps one iteration
   * order onto the other, and both samplers pick the same shape for every index in 0..4.
   */
  lemma RevisionsAgree(shape: RockShape, i: nat)
    ensures Shape.Sides(Current(shape)) == Sides(shape)
    ensures i < 4 ==> Current(Iter()[i]) == Shape.Iter()[i]
    ensures i < 4 ==> Current(Sample(i)) == Shape.Sample(i)
  {
    if i < 4 {
      Shape.SampleSearchSucceeds(i);
    }
  }
}

=== FILE: ship.dfy ===
/**
 * What the ship controllers see of the ship and ask of it. The ship itself
 * (src/ship/ship.rs) is not part of this model: the controllers read its pose and
 * send it acceleration commands.
 */
module Ships {
  import opened Vector
  import opened RealMath
  import Bullets

  /** The ship's getters the guns read: `position`, `size` and `yaw`. */
  datatype ShipPose = ShipPose(position: Vec2, size: Vec2, yaw: real)

  /** A call a controller makes on the ship: `accelerate_forward` or `accelerate_yaw_rotation`. */
  datatype Command = AccelerateForward(amount: real) | AccelerateYaw(amount: real)

  /** The unit vector the ship points along, `[cos yaw, sin yaw]`. */
  function Direction(t: Trig, yaw: real): (d: Vec2)
    ensures Pythagorean(t) ==> Square(d.x) + Square(d.y) == 1.0
    ensures AtZero(t) && yaw == 0.0 ==> d == Vec2(1.0, 0.0)
  {
    Vec2(t.cos(yaw), t.sin(yaw))
  }

  /**
   * The bullet both controller revisions build when they fire: it starts at the ship's
   * nose (the centre pushed out along the heading by the ship's size) and flies along
   * the heading at `speed`.
   */
  function Shoot(t: Trig, ship: ShipPose, speed: real, size: Vec2, countdown: nat): (b: Bullets.BulletDescriptor)
    ensures b.size == size && b.countdown == countdown
    ensures Sub(b.position, ship.position) == Mul(Direction(t, ship.yaw), ship.size)
    ensures b.velocity == Scale(Direction(t, ship.yaw), speed)
  {
    var direction := Direction(t, ship.yaw);
    Bullets.BulletDescriptor(Add(ship.position, Mul(direction, ship.size)), Scale(direction, speed), size, countdown)
  }

  /** A ship with yaw 0 fires along the x axis, from `size.x` ahead of its centre. */
  lemma ShootAtYawZero(t: Trig, ship: ShipPose, speed: real, size: Vec2, countdown: nat)
    requires AtZero(t) && ship.yaw == 0.0
    ensures Shoot(t, ship, speed, size, countdown).velocity == Vec2(speed, 0.0)
    ensures Shoot(t, ship, speed, size, countdown).position == Vec2(ship.position.x + ship.size.x, ship.position.y)
  {
  }
}
